=== FILE: README.md ===
# A Dafny model of the `retry` library

The Go library `retry` runs a function again and again until one of four things happens:

- the function returns nil;
- the attempt budget runs out, and `ErrAttemptsExceeded` is returned;
- the function reports an error that `CanRecover` rejects;
- the caller's context is done.

After every recoverable failure, the last one included, the library runs the post actions its options registered: a fixed sleep, a jittered sleep and an exponential backoff. On top of this engine sit two HTTP transport decorators:

- The newer one (`http/transport`) checks every response against status-code rules. It can also feed a rate limiter's wait time into a dynamic delay.
- The older one (`transport`) runs caller-supplied check functions.

The model is written as pure functions over datatypes:

- `errors.dfy` (module `Errors`) covers the error values and their classifiers.
- `options.dfy` (module `Options`) covers the retry options, the pre and post actions they register, and what those actions do to the delay cells.
- `engine.dfy` (module `Engine`) covers `New`, `Attempt`, `AttemptWithContext` and the loop `do`.
  - The function under retry is a script: call `n` returns the outcome `f(n)`.
  - A context is `Background`, or a context that is done once a given number of calls has been made.
  - A sleep is recorded, not performed. A `Run` lists the sleeps of every post round.
- `status.dfy` (module `Status`) covers the status-code groups.
- `transport_options.dfy` (module `TransportOptions`) covers the newer transport's options and response checks.
- `transport.dfy` (module `Transport`) covers the newer transport's `New` and `RoundTrip`.
  - The wrapped transport is a script of exchanges.
  - Its `RoundTrip` calls `DoWithContext`, an engine newer than retryer.go's. It is modelled as `do` with one change: an aborted error also ends the loop.
- `legacy_transport.dfy` (module `LegacyTransport`) covers the older transport, which runs under `AttemptWithContext`.
- `wrappers.dfy` (module `Wrappers`) holds `Option` and `Result`.

On these points the model follows the code:

- When the budget is used up, the loop returns the bare `ErrAttemptsExceeded` sentinel (retryer.go:85). It does not wrap the last error.
- Exponential backoff keeps a shared cell and truncates after every step (option.go:76-79). It is not a pure `delay * multiplier^n`: see `Options.BackoffTruncationStalls`.
- `HasAborted`, `HasExceeded` and `CanRecover` match the error's type directly. None of them unwraps (errors.go:50-64, error_noretry.go:15-20).
- The tests expect the texts `aborted retries:` and `exceeded attempts:` (errors_test.go:40-41). The code prints `[retry:aborted] msg` (errors.go:31-33). The model follows the code.
- The transport tests call `WithRetryOnStatusCode` and `WithRetryOnStatusGroup` (http/transport/round_tripper_test.go:75-81). Neither exists in the option file, so they are not modelled.

## Model

| member | source | states |
|---|---|---|
| Errors.KindName | errors.go:7-24 | each of the three kinds gets its registered name, and every other `failed` value gets "unknown", in both directions |
| Errors.ExceededRetries | errors.go:31-39 | the error classifies as exceeded and not as aborted; its text is "[retry:exceeded] " followed by the message |
| Errors.AbortedRetries | errors.go:31-45 | the error classifies as aborted and not as exceeded; its text is "[retry:aborted] " followed by the message; `CanRecover` calls it recoverable and hands it back |
| Errors.NoRecover | error_noretry.go:8-26 | its text is the message; `CanRecover` reports it unrecoverable and hands back the same error; it is neither aborted nor exceeded |
| Errors.CanRecover | error_noretry.go:12-20 | the error returned is always the error passed in |
| Errors.AbortedIffBuilt | errors.go:50-55 | an error, nil included, classifies as aborted exactly when it was built by `AbortedRetries` |
| Errors.ExceededIffBuilt | errors.go:59-64 | an error classifies as exceeded exactly when it was built by `ExceededRetries` |
| Errors.UnrecoverableIffNoRecover | error_noretry.go:15-20 | `CanRecover` reports false for exactly the `NoRecover` errors |
| Errors.NoUnwrapping | errors.go:50-64 | an error that wraps another is neither aborted nor exceeded, and it is recoverable, whatever it wraps |
| Errors.HasAborted | errors.go:50-55 | an error classified as aborted is not classified as exceeded and is recoverable; it is a `failedRetries` value whose text is "[retry:aborted] " followed by its message |
| Errors.HasExceeded | errors.go:59-64 | an error classified as exceeded is recoverable; it is a `failedRetries` value whose text is "[retry:exceeded] " followed by its message |
| Errors.ErrorText | errors.go:31-33 | the text of a `failedRetries` error ends with its message, and its tag reads "aborted" exactly for the aborted kind and "exceeded" exactly for the exceeded kind; a `NoRecover` error's text is its message; the sentinel's text is "exceeded allowed attempts" |
| Errors.TagNamesKind | errors.go:31-33 | for any kind and message, the formatted text ends with the message and its tag tells an aborted error and an exceeded one apart from every other kind |
| Options.Apply | option.go:18-83 | an option fails exactly when it is invalid: a nil logger, a delay of 0 or less, or a multiplier below 1. On success it appends exactly the option's post action. A backoff also appends one pre action that resets its own cell, and the other options leave the pre actions alone. Only `WithLogger` changes the logger. Every option keeps the pairing of backoff post and reset pre actions |
| Options.RunPre | option.go:71-74 | the pre actions touch neither the rate-limit slots nor the random source |
| Options.Act | option.go:34-80 | a fixed delay sleeps exactly its delay. A jitter sleeps in [0, delay). A backoff sleeps its cell's value, or its initial delay if the cell is empty, and then stores the truncated product. Only a backoff changes a backoff cell, and no action changes a rate-limit slot |
| Options.RunRound | retryer.go:81-83 | a round sleeps once per post action, in order, each sleep fitting its action, and leaves the rate-limit slots alone |
| Options.RunRoundSleeps | option.go:68-80 | in a round, each backoff sleeps the value in its own cell, or its initial delay if the cell is empty, and leaves the scaled delay there. A dynamic delay sleeps its slot's value |
| Options.RunRoundKeepsCells | option.go:68-80 | a round leaves every cell that belongs to no backoff as it was: an empty cell stays empty, and a filled one keeps its value |
| Options.PreResetsBackoff | option.go:71-74 | for a well-formed retryer, the pre actions set every backoff cell to that backoff's initial delay, whatever the cells held |
| Options.BackoffNeverShrinks | option.go:68-79 | with a multiplier of at least 1, every backoff delay is at least the initial delay and at least the delay before it |
| Options.BackoffGeometric | option.go:58-79 | with a whole multiplier k, the n-th delay is exactly initial times k to the power n |
| Options.BackoffTruncationStalls | option.go:79 | with delay 1 and multiplier 1.5, truncation keeps every delay at 1, so the delay does not grow geometrically |
| Engine.Build | retryer.go:24-28 | folding options fails exactly when some option is invalid. On success the post actions are exactly those of all the options, in order, and well-formedness is kept |
| Engine.BuildFailsAtFirstRejection | retryer.go:24-27 | a failed fold reports the error of the first invalid option; every option before it is valid |
| Engine.New | retryer.go:20-30 | `New` fails exactly when some option is invalid, and then with the first rejection's error; a retryer it builds is well-formed and has every option's post actions, in order |
| Engine.Loop | retryer.go:61-85 | the loop calls the function at most `rem` more times; it only appends post rounds, one per failed call that it retried; every round fits the post actions; nil is returned only when the last call succeeded |
| Engine.Do | retryer.go:51-60 | a nil or already-done context, or a nil function, is refused before any call. The function is called at most `max(limit, 0)` times. A limit of 0 or less returns the sentinel without calling. The rounds number the calls or one fewer. Nil means the last call succeeded |
| Engine.Attempt | retryer.go:43-45 | the background context is never refused: a nil function is refused without a call, and otherwise a positive limit means between 1 and `limit` calls; nil means the last call succeeded; a first call that returns nil ends it at once, with no round |
| Engine.AttemptWithContext | retryer.go:47-49 | a nil or already-done context is refused before any call; under the background context it is exactly `Attempt`; nil means the last call succeeded |
| Engine.DoWithContext | http/transport/round_tripper.go:76-96 | under the newer engine, a nil or already-done context is refused before any call; an aborted error on the first call is returned after that one call, with no round; nil means the last call succeeded |
| Engine.Retried | retryer.go:80-83 | a call that is retried adds exactly one call and one post round, keeps the earlier rounds, and the new round fits the post actions |
| Engine.RetriedSleepsStores | retryer.go:69-83 | the slot stores of a retried call land before its post round, so each dynamic delay in that round sleeps what the call stored in its slot |
| Engine.FirstRoundOfLoop | retryer.go:61-84 | when the first call keeps the loop going, the run's first new round is the post round that follows that call |
| Engine.LoopExhausts | retryer.go:61-85 | while every call fails with an error that keeps the loop going, the whole budget is used, with one post round per call, and the bare sentinel is returned |
| Engine.LoopStopsAt | retryer.go:61-79 | at the first call `k` that does not keep the loop going, the loop returns either the context's error (k calls) or that call's own error or nil (k + 1 calls), after one round per earlier call |
| Engine.DoWithContextSucceedsOnCall | http/transport/round_tripper.go:76-96 | under the newer engine, if call k is the first that neither keeps going nor meets a done context, and it returns nil, nil is returned after k + 1 calls |
| Engine.AttemptSucceedsOnCall | retryer.go:43-72 | if call k is the first to return nil after recoverable failures, `Attempt` returns nil after k + 1 calls and k post rounds |
| Engine.AttemptExhausts | retryer.go:43-85 | when every call fails recoverably, `Attempt` calls the function `limit` times, or 0 times when `limit` is 0 or less, runs a round after each failure and returns `ErrAttemptsExceeded` itself |
| Engine.AttemptStopsOnNoRecover | retryer.go:74-78 | a `NoRecover` error on call k is returned as it is, after k + 1 calls and k rounds |
| Engine.AttemptWithContextStopsWhenDone | retryer.go:62-65 | a context that becomes done after k calls stops the loop before call k + 1, and its error is returned |
| Engine.AttemptIgnoresAbort | retryer.go:76-78 | the engine of retryer.go does not stop on aborted errors: a function that always aborts uses the whole budget |
| Engine.DoWithContextStopsOnAbort | http/transport/round_tripper.go:76-80 | under the newer engine, an aborted error on call k ends the loop after k + 1 calls, with that error |
| Engine.RoundAdvancesBackoff | option.go:75-80 | a post round sleeps every backoff's n-th delay and leaves its cell holding the (n+1)-th |
| Engine.ExtendBackoffRounds | option.go:75-80 | appending a round that holds the next backoff delays keeps the whole schedule correct |
| Engine.RetriedKeepsBackoff | retryer.go:80-83 | a retried call keeps the backoff schedule: its round sleeps each backoff's delay for that round's number, and the cells move on to the next |
| Engine.LoopKeepsBackoff | retryer.go:61-84 | every round the loop runs sleeps each backoff's delay for that round's number |
| Engine.BackoffSchedule | option.go:71-80 | within one `do` call of a well-formed retryer, round i sleeps every backoff's i-th delay, starting again from the initial delay on each call |
| Status.Group | http/status/group.go:22-24 | the group is the hundreds of the status, with Go's truncating division: for a status of 0 or more it is the floor, below 0 it rounds toward zero |
| Status.GroupText | http/status/group.go:3-31 | groups 1 to 5 get their digit followed by "xx"; every other group gets "?xx" |
| Status.GroupTextOfStatus | http/status/group.go:22-31 | a status from 100 to 599 is labelled with the digit of its hundreds, followed by "xx" |
| TransportOptions.Evaluate | http/transport/round_tripper_option.go:46-146 | every check rejects a nil response with "response is nil". A no-retry check aborts exactly on its codes. A retry-on check fails retryably exactly on its codes. A retry-until check fails retryably exactly off its codes. A rate-limit check passes any status but 429. On a 429 it fails exactly when the limiter reports exceeded with a positive wait; it stores that wait in its slot, or 0 when it passes |
| TransportOptions.RetryUntilNilPanics | http/transport/round_tripper_option.go:105-110 | finding: the retry-until check, as written, panics on a nil response, where the corrected check returns a retryable "response is nil" error |
| TransportOptions.Register | http/transport/round_tripper_option.go:39-44 | registering codes fails exactly when a code is already in the table or repeats within the same call. On success the table gains exactly the codes |
| TransportOptions.RegisterReportsFirstClash | http/transport/round_tripper_option.go:39-42 | when code i is the first that is already in the table or repeats an earlier code, registration fails with the clash error on code i |
| TransportOptions.AppendRetryOptions | http/transport/round_tripper_option.go:17-27 | the option fails exactly when one of the retry options is nil; otherwise it appends all of them, in order, after those already collected |
| TransportOptions.Apply | http/transport/round_tripper_option.go:17-149 | an option fails exactly when it is malformed or one of its codes clashes. A no-retry check is put first. Retry-on, retry-until and rate-limit checks are put last. A rate-limit option also adds a dynamic delay reading its own slot. The table gains exactly the option's codes |
| TransportOptions.ClashFreeAppend | http/transport/round_tripper_option.go:39-44 | a list of codes is free of clashes exactly when its first part is, and its second part is too against the table grown by the first |
| TransportOptions.ConfigureFailsIff | http/transport/round_tripper.go:36-41 | folding the options fails exactly when some option is malformed, or some status code is registered twice, by two options or within one |
| TransportOptions.Configure | http/transport/round_tripper.go:36-41 | a successful fold keeps the retry options collected before it as a prefix, and every check collected before it is still among its checks |
| TransportOptions.ConfigureRegistersAllCodes | http/transport/round_tripper.go:36-41 | a successful fold has put into the table exactly the codes of all the options |
| TransportOptions.ConfigureStopsAtFirstError | http/transport/round_tripper.go:37-41 | when option k is the first whose application fails, the fold fails with that option's error; the options after it are not applied |
| TransportOptions.ApplyKeepsValidity | http/transport/round_tripper_option.go:17-27 | after one option, the collected retry options are all valid exactly when they were before and the option carries no invalid retry option |
| TransportOptions.ConfigureKeepsValidity | http/transport/round_tripper.go:36-46 | the collected retry options are all valid exactly when those given through `WithRetryOptions` are, because the dynamic delay a rate-limit check adds is always accepted |
| Transport.New | http/transport/round_tripper.go:28-54 | the nil-transport and non-positive-attempts errors come first. `New` fails exactly when an option is malformed, a code clashes or a retry option is invalid. A failed fold returns the fold's error, which is that of the first failing option; otherwise a failure is the error of the engine's `New` on the collected retry options. A transport it builds keeps the attempts and the wrapped transport and carries the folded checks. Its retryer is the one the engine's `New` builds from the collected retry options, which is well formed |
| Transport.Combine | http/transport/round_tripper.go:84-91 | verdicts taken in order until one fails: the result passes exactly when every verdict passes, and then carries all their stores merged in order; every slot stored comes from one of the verdicts |
| Transport.CombineStopsAt | http/transport/round_tripper.go:84-91 | when verdict k is the first failure, the result is its error with the stores of verdicts 0 to k merged; later verdicts contribute nothing |
| Transport.CombineReportsFirstFailure | http/transport/round_tripper.go:84-91 | a failed combination has the error of its first failing verdict; every verdict before it passed |
| Transport.RunChecks | http/transport/round_tripper.go:84-92 | the checks pass exactly when each one passes, and then the stores are those of all the checks merged in order. Only rate-limit checks store into slots, each into its own |
| Transport.RunChecksStopsAt | http/transport/round_tripper.go:84-91 | when check k is the first to fail, the run returns its error with the stores of checks 0 to k merged in order: the later checks never run and store nothing |
| Transport.RunChecksReportsFirstFailure | http/transport/round_tripper.go:84-91 | when the checks fail, the error is that of the first failing check; every check before it passed |
| Transport.AttemptOnce | http/transport/round_tripper.go:77-95 | a transport error becomes an aborted error holding its text. Otherwise the call succeeds exactly when every check passes. A body is closed exactly when a check rejected a response that has one. A response is captured only on success |
| Transport.AttemptOnceRunsChecks | http/transport/round_tripper.go:84-91 | on an answer without a transport error, the call's error and slot stores are those of running the checks in order |
| Transport.AttemptOnceStopsAt | http/transport/round_tripper.go:84-91 | when check `k` is the first to fail on an answer without a transport error, the call fails with check `k`'s error. Only the checks up to `k` have stored into their slots |
| Transport.RoundTrip | http/transport/round_tripper.go:70-99 | a nil request is refused without a send. There are at most `attempts` sends. A response is returned only with a nil error, and it is the last send's error-free answer, which passed every check and was not closed. The closed bodies are exactly the sends whose response, with a body, failed a check |
| Transport.TransportErrorAborts | http/transport/round_tripper.go:77-80 | a transport error on the first send ends the round trip at once with the aborted error that wraps it |
| Transport.NoRetryCodeAborts | http/transport/round_tripper_option.go:32-56 | when the first check is a no-retry check and the first response has one of its codes, the round trip ends after one send with an aborted error |
| Transport.NoChecksReturnsFirstAnswer | http/transport/round_tripper.go:84-98 | with no checks, the first error-free answer is returned as it is, a nil response included, after one send |
| Transport.FirstAnswerWithoutChecks | http/transport/round_tripper.go:84-98 | a transport without checks returns its first error-free answer after one send, closes nothing and runs no round |
| Transport.OneOptionTransport | http/transport/round_tripper.go:36-53 | a transport built from one option that is well formed and free of clashes succeeds and carries that option's check alone |
| Transport.RateLimitTransportSleepsSlot | http/transport/round_tripper_option.go:118-124 | a transport built from one rate-limit option succeeds. Its only check is that rate-limit check on slot 0, and its retryer's only post action sleeps the delay stored in that same slot |
| Transport.RateLimitedSend | http/transport/round_tripper_option.go:125-145 | on a 429 answer whose limiter asks to wait a positive time, the rate-limit check fails with an error that keeps the loop going and stores that wait in slot 0 |
| Transport.RateLimitDelaysRetry | http/transport/round_tripper_option.go:119-145 | when the first send of a transport with one rate-limit check answers 429 and the limiter asks to wait a positive time, the post round after that send sleeps exactly that wait |
| Transport.ExhaustsWhileRetryable | http/transport/round_tripper.go:76-98 | while every send ends in a retryable error, the round trip uses every attempt and returns the sentinel with no response |
| Transport.ReturnsFirstPass | http/transport/round_tripper.go:76-98 | if send k is the first to pass every check, after retryable failures, its response is returned after k + 1 sends |
| Transport.RoundTripRuns | http/transport/round_tripper.go:75-98 | under the background context, `RoundTrip` reports the send count and error of the engine's run of the closure. On success it returns the response of the last send |
| Transport.RetryOnExhausts | http/transport/round_tripper_option.go:63-85 | when every response has a retry-on code, there are `attempts` sends, every body is closed, and the sentinel is returned with no response |
| Transport.RetryUntilReturnsMatch | http/transport/round_tripper_option.go:90-112 | a transport whose only check is a retry-until check sends until the first response with a wanted code, and returns that response with a nil error after k + 1 sends |
| Transport.RunChecksAgree | http/transport/round_tripper_option.go:105-110 | for a non-nil response, the checks as written and the corrected checks give the same result |
| Transport.AsWrittenPanicsIff | http/transport/round_tripper.go:84-92 | finding: the closure as written panics exactly when the wrapped transport returns neither a response nor an error and there is a check; otherwise it agrees with the corrected closure |
| Transport.NilAnswerPanics | http/transport/round_tripper.go:85-89 | finding: a retry-on check and a (nil, nil) answer make the closure as written panic, where the corrected one retries with "response is nil" |
| LegacyTransport.ConfigureAppend | transport/round_tripper.go:36-41 | folding two lists of options folds the first, then the second, from where the first ended |
| LegacyTransport.ConfigureStopsAtFirstError | transport/round_tripper.go:37-41 | the first option that fails decides the error, and the later options are not applied |
| LegacyTransport.Configure | transport/round_tripper.go:36-41 | a failed fold fails with the error of an option reached after every earlier option succeeded, that is, of the first option that fails |
| LegacyTransport.New | transport/round_tripper.go:28-54 | the nil-transport and non-positive-attempts errors come first. Otherwise `New` fails exactly when the fold fails or a collected retry option is invalid. A failed fold returns the fold's error; otherwise a failure is the error of the engine's `New` on the collected retry options. A transport it builds keeps the attempts, the wrapped transport and the checks. Its retryer is the one the engine's `New` builds from the collected retry options, which is well formed |
| LegacyTransport.FirstFailure | transport/round_tripper.go:83-87 | the checks pass exactly when each one returns nil |
| LegacyTransport.FirstFailureIsFirst | transport/round_tripper.go:83-87 | when the checks fail, the error is that of the first failing check; every check before it returned nil |
| LegacyTransport.AttemptOnce | transport/round_tripper.go:76-89 | an error without a response becomes a `NoRecover` error holding its text. An error with a response is returned unchanged. Otherwise the call's error is the first error the checks report in order, and the call succeeds exactly when every check passes. A response is captured only on success |
| LegacyTransport.AttemptOnceStopsAt | transport/round_tripper.go:83-87 | when check `k` is the first to fail on an answer without a transport error, the call fails with check `k`'s own error |
| LegacyTransport.RoundTrip | transport/round_tripper.go:70-92 | a nil request is refused without a send. There are at most `attempts` sends. Nil is returned only with the last send's error-free response, which passed every check. No body is closed |
| LegacyTransport.ConnectionFailureStops | transport/round_tripper.go:78-79 | a first send that fails with no response ends the round trip after one send, with a `NoRecover` error carrying the text |
| LegacyTransport.ResponseErrorsRetried | transport/round_tripper.go:80-81 | errors that come with a response are retried like any recoverable error, aborted ones included, until the budget is used |
| LegacyTransport.ReturnsFirstPass | transport/round_tripper.go:83-89 | if send k is the first whose response passes every check, its response is returned after k + 1 sends |

## Left out

- Logging through zap: the logger is recorded, but nothing is logged.
- Sleeping, `math/rand` and clocks:
  - A sleep is recorded as a duration in the round that made it.
  - The random source is a parameter: draw n is `rng(n)`, and jitter sleeps it modulo the delay.
- Options.Act: the backoff product is computed on exact reals and truncated toward zero. float64 rounding and int64 overflow of `int64(float64(t)*multiplier)` are not modelled.
- Atomic access to the shared backoff cell and rate-limit slot is not modelled, and neither are concurrent retryers sharing one option value.
- Options.Apply: each backoff post action gets its own cell, keyed by its index among the retryer's post actions, and each rate-limit check gets its own slot, keyed by its option position. In Go the cell belongs to the option value (option.go:63). So one `WithExponentialBackoff(10, 2.0)` value passed twice to one `New` shares a cell between its two actions: a round sleeps 10 then 20, where the model sleeps 10 and 10. One `WithRateLimitCheck` value passed twice to one transport likewise shares one slot. Reuse of an option value across retryers is not modelled either.
- Options.Apply: the multiplier is an exact real, so NaN and infinite float64 multipliers cannot be represented. Go accepts a NaN multiplier, because `multiplier < 1.0` is false for NaN (option.go:68), and it accepts +Inf.
- Contexts are reduced to "never done" and "done after n calls". The loop's `select` on `ctx.Done()` is a check before each call; deadlines and cancellation timing are not modelled.
- `Must` and `Default`: `Must` only panics, and `Default` only binds `http.DefaultTransport`.
- Passing a nil `retry.Option` straight to `retry.New` panics in Go. Options here are data and cannot be nil.
- `http.Request`, `http.Response` and `http.Header` are reduced to a context, to a status, header and body flag, and to a map of strings. Closing a body is recorded, not performed.
- TransportOptions.Register: the clash error omits `http.StatusText(code)`, because the net/http status text table is not part of this model.
- `DoWithContext`, `WithDynamicDelay` and an `AbortedRetries` that takes an error are called by http/transport but are not defined in errors.go, option.go or retryer.go:
  - `DoWithContext` is modelled as `do`, except that an aborted error also ends the loop.
  - `WithDynamicDelay` is modelled as an always-valid option whose post action sleeps its slot's current value.
  - `AbortedRetries(err)` is modelled as an aborted error holding `err.Error()`.
- The option file of the older transport package is not part of this model. Its options are any function from configuration to configuration-or-error, and its checks are any function from response to error.
- http/client is not modelled.
- Go compares errors by pointer: each `errors.New` is a fresh value. The model compares errors structurally.

## Findings

| source | as written | input that shows it | evidently intended | confidence | as-written member | corrected member |
|---|---|---|---|---|---|---|
| http/transport/round_tripper_option.go:105-110 | the retry-until check reads `resp.StatusCode` without checking for nil, unlike its sibling checks | a wrapped transport that returns a nil response and a nil error, with `WithRetryUntilResponseCodes(200)` | fail with the retryable "response is nil" error, as the other checks do | low, not executed | TransportOptions.EvaluateAsWritten (TransportOptions.RetryUntilNilPanics) | TransportOptions.Evaluate |
| http/transport/round_tripper.go:85-89 | after a failing check, `r.Body` is read without checking that `r` is non-nil | a wrapped transport that returns a nil response and a nil error, with `WithRetryOnResponseCodes(500)` | return the check's error and retry, closing nothing | low, not executed | Transport.AttemptOnceAsWritten (Transport.NilAnswerPanics, Transport.AsWrittenPanicsIff) | Transport.AttemptOnce |

=== FILE: engine.dfy ===
/** The attempt loop of retryer.go (`New`, `Attempt`, `AttemptWithContext`,
    `do`) with the contract interface.go documents for it.

    The guarded function is scripted: call number `n` (counting from 0)
    returns `f(n)`. Cancellation is a context that is done from a given
    number of calls on. The loop is parameterised by the rule that decides
    which errors end it early: the engine of retryer.go stops only on
    `NoRecover` errors; the HTTP transport calls a newer engine than
    retryer.go's, assumed to stop on aborted errors as well. */
module Engine {
  import opened Wrappers
  import opened Errors
  import opened Options

  /** A `context.Context`: `Background` is never done; `DoneAfter(n, e)` is
      done at every check made after `n` calls of the function, and its
      `Err()` is then `e`. `DoneAfter(0, e)` is done before the loop starts. */
  datatype Context = Background | DoneAfter(calls: nat, err: Error)

  predicate Done(ctx: Context, calls: nat)
  {
    ctx.DoneAfter? && ctx.calls <= calls
  }

  /** The checks `do` makes before anything runs: a non-nil context that is
      not done yet. */
  predicate Usable(ctx: Option<Context>)
  {
    ctx.Some? && !Done(ctx.value, 0)
  }

  /** What one call of the guarded function did: the error it returned (None
      for nil) and the rate-limit delay slots it stored. */
  datatype Outcome = Outcome(err: Option<Error>, stores: map<nat, int>)

  /** The guarded function: the outcome of each call, by call number. */
  type Operation = nat -> Outcome

  /** Which errors end the loop at once. */
  datatype StopRule =
      /** retryer.go: only errors `CanRecover` rejects. */
    | CanRecoverOnly
      /** The newer engine the HTTP transport calls: aborted errors too. */
    | StopOnAbort

  predicate Terminal(rule: StopRule, err: Error)
  {
    !CanRecover(Some(err)).0 || (rule == StopOnAbort && HasAborted(Some(err)))
  }

  /** The loop state after some calls: how many calls were made, the sleeps
      of each post round so far, and the cells. */
  datatype Progress = Progress(calls: nat, rounds: seq<seq<int>>, env: Env)

  /** The observable result of one `do` call: the error returned (None for
      nil), the number of calls of the function, the sleeps of every post
      round in order (round i ran right after call i), and the cells. */
  datatype Run = Run(result: Option<Error>, calls: nat, rounds: seq<seq<int>>, env: Env)

  /** Call number `j` fails with an error that keeps the loop going, and the
      context is not done before it. */
  predicate Continues(rule: StopRule, ctx: Context, f: Operation, j: nat)
  {
    !Done(ctx, j) && f(j).err.Some? && !Terminal(rule, f(j).err.value)
  }

  /** The function fails with an error `CanRecover` accepts. */
  predicate FailsRecoverably(o: Outcome)
  {
    o.err.Some? && CanRecover(o.err).0
  }

  /** The options folded in order onto `r`; the first rejected option ends
      the fold with its error. */
  function Build(opts: seq<RetryOption>, r: Retryer): (res: Result<Retryer, Error>)
    ensures res.Failure? <==> exists i :: 0 <= i < |opts| && !Valid(opts[i])
    ensures res.Success? ==> res.value.post == r.post + RegisteredAll(opts)
    ensures res.Success? && WellFormed(r) ==> WellFormed(res.value)
    decreases |opts|
  {
    if |opts| == 0 then Success(r)
    else
      match Apply(opts[0], r)
      case Failure(e) => Failure(e)
      case Success(r') =>
        var tail := opts[1..];
        assert forall i :: 1 <= i < |opts| ==> opts[i] == tail[i - 1];
        Build(tail, r')
  }

  /** A failed fold reports the error of the first option rejected. */
  lemma {:induction false} BuildFailsAtFirstRejection(opts: seq<RetryOption>, r: Retryer)
    requires Build(opts, r).Failure?
    ensures exists i :: 0 <= i < |opts| && !Valid(opts[i])
                        && (forall k :: 0 <= k < i ==> Valid(opts[k]))
                        && Build(opts, r).error == Apply(opts[i], r).error
    decreases |opts|
  {
    var first := Apply(opts[0], r);
    if first.Success? {
      var tail := opts[1..];
      BuildFailsAtFirstRejection(tail, first.value);
      var i :| 0 <= i < |tail| && !Valid(tail[i])
               && (forall k :: 0 <= k < i ==> Valid(tail[k]))
               && Build(tail, first.value).error == Apply(tail[i], first.value).error;
      assert Build(opts, r) == Build(tail, first.value);
      ApplyErrorIgnoresRetryer(tail[i], first.value, r);
      assert opts[i + 1] == tail[i];
      forall k | 0 <= k < i + 1
        ensures Valid(opts[k])
      {
        if 0 < k {
          assert opts[k] == tail[k - 1];
        }
      }
    } else {
      assert !Valid(opts[0]);
    }
  }

  /** The post actions of all the options, in order. */
  function RegisteredAll(opts: seq<RetryOption>): seq<PostAction>
  {
    if |opts| == 0 then [] else Registered(opts[0]) + RegisteredAll(opts[1..])
  }

  /** `New(opts...)`: a retryer with the no-op logger and no actions, with
      the options applied in order. */
  function New(opts: seq<RetryOption>): (res: Result<Retryer, Error>)
    ensures res.Failure? <==> exists i :: 0 <= i < |opts| && !Valid(opts[i])
    ensures res.Failure? ==>
              exists i :: 0 <= i < |opts| && !Valid(opts[i])
                          && (forall k :: 0 <= k < i ==> Valid(opts[k]))
                          && res.error == Apply(opts[i], Retryer(Nop, [], [])).error
    ensures res.Success? ==> res.value.post == RegisteredAll(opts) && WellFormed(res.value)
  {
    var res := Build(opts, Retryer(Nop, [], []));
    if res.Failure? then BuildFailsAtFirstRejection(opts, Retryer(Nop, [], [])); res else res
  }

  /** The cells once a call's rate-limit stores have landed. */
  function Stored(env: Env, o: Outcome): Env
  {
    env.(rate := env.rate + o.stores)
  }

  /** The loop state after a call that failed and is retried: its stores
      landed, then one post round ran. */
  function Retried(post: seq<PostAction>, o: Outcome, rng: Rng, p: Progress): (q: Progress)
    ensures q.calls == p.calls + 1
    ensures |q.rounds| == |p.rounds| + 1 && q.rounds[..|p.rounds|] == p.rounds
    ensures RoundFits(post, q.rounds[|p.rounds|])
  {
    var round := RunRound(post, rng, Stored(p.env, o));
    assert (p.rounds + [round.sleeps])[..|p.rounds|] == p.rounds;
    Progress(p.calls + 1, p.rounds + [round.sleeps], round.env)
  }

  /** The `for rem := limit; rem > 0; rem--` loop of `do`, from a given state. */
  function Loop(post: seq<PostAction>, rule: StopRule, ctx: Context, f: Operation, rng: Rng,
                rem: int, p: Progress): (run: Run)
    ensures p.calls <= run.calls
    // At most max(rem, 0) calls: none once rem <= 0.
    ensures run.calls == p.calls || run.calls - p.calls <= rem
    ensures Extends(post, p.rounds, run.rounds)
    ensures |run.rounds| - |p.rounds| == run.calls - p.calls
            || |run.rounds| - |p.rounds| == run.calls - p.calls - 1
    ensures run.result.None? ==> p.calls < run.calls && f(run.calls - 1).err.None?
    decreases rem
  {
    if rem <= 0 then Run(Some(AttemptsExceeded), p.calls, p.rounds, p.env)
    else if Done(ctx, p.calls) then Run(Some(ctx.err), p.calls, p.rounds, p.env)
    else
      var o := f(p.calls);
      if o.err.None? then Run(None, p.calls + 1, p.rounds, Stored(p.env, o))
      else if Terminal(rule, o.err.value) then Run(o.err, p.calls + 1, p.rounds, Stored(p.env, o))
      else
        var q := Retried(post, o, rng, p);
        var run := Loop(post, rule, ctx, f, rng, rem - 1, q);
        RoundsCarry(post, p.rounds, q.rounds, run.rounds);
        run
  }

  /** The rounds `c` are the rounds `a` followed by post rounds that fit
      the post actions. */
  predicate Extends(post: seq<PostAction>, a: seq<seq<int>>, c: seq<seq<int>>)
  {
    && |a| <= |c| && c[..|a|] == a
    && forall i :: |a| <= i < |c| ==> RoundFits(post, c[i])
  }

  /** Rounds that extend `b`, itself `a` plus one fitting round, extend `a`. */
  lemma RoundsCarry(post: seq<PostAction>, a: seq<seq<int>>, b: seq<seq<int>>, c: seq<seq<int>>)
    requires |a| + 1 == |b| && b[..|a|] == a && RoundFits(post, b[|a|])
    requires Extends(post, b, c)
    ensures Extends(post, a, c)
  {
    assert c[..|a|] == b[..|a|];
    assert c[|a|] == b[|a|];
  }

  /** `do(ctx, limit, f)`: the entry checks, the pre actions, then the loop. */
  function Do(r: Retryer, rule: StopRule, ctx: Option<Context>, limit: int, f: Option<Operation>,
              rng: Rng, env: Env): (run: Run)
    ensures !Usable(ctx) ==> run == Run(Some(Message("invalid context provided")), 0, [], env)
    ensures Usable(ctx) && f.None? ==> run == Run(Some(Message("invalid function provided")), 0, [], env)
    ensures run.calls <= (if 0 < limit then limit else 0)
    ensures Usable(ctx) && f.Some? && limit <= 0 ==>
              run.result == Some(AttemptsExceeded) && run.calls == 0 && run.rounds == []
    ensures forall i :: 0 <= i < |run.rounds| ==> RoundFits(r.post, run.rounds[i])
    ensures |run.rounds| == run.calls || |run.rounds| + 1 == run.calls
    ensures run.result.None? ==> 0 < run.calls && f.Some? && f.value(run.calls - 1).err.None?
  {
    if ctx.None? || Done(ctx.value, 0) then Run(Some(Message("invalid context provided")), 0, [], env)
    else if f.None? then Run(Some(Message("invalid function provided")), 0, [], env)
    else Loop(r.post, rule, ctx.value, f.value, rng, limit, Progress(0, [], RunPre(r.pre, env)))
  }

  /** `Attempt(limit, f)`: `do` under the background context. */
  function Attempt(r: Retryer, limit: int, f: Option<Operation>, rng: Rng, env: Env): (run: Run)
    ensures f.None? ==> run == Run(Some(Message("invalid function provided")), 0, [], env)
    ensures f.Some? && 0 < limit ==> 0 < run.calls <= limit
    ensures run.result.None? ==> 0 < run.calls && f.Some? && f.value(run.calls - 1).err.None?
    ensures f.Some? && 0 < limit && f.value(0).err.None? ==> run.result.None? && run.calls == 1 && run.rounds == []
  {
    Do(r, CanRecoverOnly, Some(Background), limit, f, rng, env)
  }

  /** `AttemptWithContext(ctx, limit, f)`. */
  function AttemptWithContext(r: Retryer, ctx: Option<Context>, limit: int, f: Option<Operation>,
                              rng: Rng, env: Env): (run: Run)
    ensures !Usable(ctx) ==> run == Run(Some(Message("invalid context provided")), 0, [], env)
    ensures ctx == Some(Background) ==> run == Attempt(r, limit, f, rng, env)
    ensures run.result.None? ==> 0 < run.calls && f.Some? && f.value(run.calls - 1).err.None?
  {
    Do(r, CanRecoverOnly, ctx, limit, f, rng, env)
  }

  /** The `DoWithContext` the HTTP transport calls, assumed to be `do` with
      aborted errors ending the loop as well. */
  function DoWithContext(r: Retryer, ctx: Option<Context>, limit: int, f: Option<Operation>,
                         rng: Rng, env: Env): (run: Run)
    ensures !Usable(ctx) ==> run == Run(Some(Message("invalid context provided")), 0, [], env)
    ensures Usable(ctx) && f.Some? && 0 < limit && HasAborted(f.value(0).err) ==>
              run.result == f.value(0).err && run.calls == 1 && run.rounds == []
    ensures run.result.None? ==> 0 < run.calls && f.Some? && f.value(run.calls - 1).err.None?
  {
    Do(r, StopOnAbort, ctx, limit, f, rng, env)
  }

  /** While every call keeps the loop going, the loop uses its whole budget
      and ends with the bare sentinel, after a post round for every call. */
  lemma {:induction false} LoopExhausts(post: seq<PostAction>, rule: StopRule, ctx: Context, f: Operation,
                                        rng: Rng, rem: nat, p: Progress)
    requires forall j :: p.calls <= j < p.calls + rem ==> Continues(rule, ctx, f, j)
    ensures Loop(post, rule, ctx, f, rng, rem, p).result == Some(AttemptsExceeded)
    ensures Loop(post, rule, ctx, f, rng, rem, p).calls == p.calls + rem
    ensures |Loop(post, rule, ctx, f, rng, rem, p).rounds| == |p.rounds| + rem
    decreases rem
  {
    if 0 < rem {
      assert Continues(rule, ctx, f, p.calls);
      LoopRetries(post, rule, ctx, f, rng, rem, p);
      LoopExhausts(post, rule, ctx, f, rng, rem - 1, Retried(post, f(p.calls), rng, p));
    }
  }

  /** The loop stops at the first call `k` that does not keep it going: with
      the context's error before calling when the context is done, otherwise
      with what call `k` returned; there was one post round per earlier call. */
  lemma {:induction false} LoopStopsAt(post: seq<PostAction>, rule: StopRule, ctx: Context, f: Operation,
                                       rng: Rng, rem: int, p: Progress, k: nat)
    requires p.calls <= k < p.calls + rem
    requires forall j :: p.calls <= j < k ==> Continues(rule, ctx, f, j)
    requires !Continues(rule, ctx, f, k)
    ensures Loop(post, rule, ctx, f, rng, rem, p).calls == if Done(ctx, k) then k else k + 1
    ensures Loop(post, rule, ctx, f, rng, rem, p).result == if Done(ctx, k) then Some(ctx.err) else f(k).err
    ensures |Loop(post, rule, ctx, f, rng, rem, p).rounds| == |p.rounds| + (k - p.calls)
    decreases rem
  {
    if p.calls < k {
      LoopRetries(post, rule, ctx, f, rng, rem, p);
      LoopStopsAt(post, rule, ctx, f, rng, rem - 1, Retried(post, f(p.calls), rng, p), k);
    } else {
      LoopStops(post, rule, ctx, f, rng, rem, p);
    }
  }

  /** A call that keeps the loop going is followed by a post round and the
      rest of the loop with one attempt fewer. */
  lemma LoopRetries(post: seq<PostAction>, rule: StopRule, ctx: Context, f: Operation,
                    rng: Rng, rem: int, p: Progress)
    requires 0 < rem && Continues(rule, ctx, f, p.calls)
    ensures Loop(post, rule, ctx, f, rng, rem, p) == Loop(post, rule, ctx, f, rng, rem - 1, Retried(post, f(p.calls), rng, p))
  {
  }

  /** The stores of a retried call land before its post round, so every
      dynamic delay of that round sleeps what the call stored in its slot. */
  lemma RetriedSleepsStores(post: seq<PostAction>, o: Outcome, rng: Rng, p: Progress)
    ensures var q := Retried(post, o, rng, p);
            forall j :: 0 <= j < |post| && post[j].DynamicSleep? && post[j].cell in o.stores ==>
              q.rounds[|p.rounds|][j] == o.stores[post[j].cell]
  {
    RunRoundSleeps(post, rng, Stored(p.env, o));
  }

  /** A first call that keeps the loop going is followed by the post round
      `Retried` runs, which is the run's first round from `p`. */
  lemma FirstRoundOfLoop(post: seq<PostAction>, rule: StopRule, ctx: Context, f: Operation,
                         rng: Rng, rem: int, p: Progress)
    requires 0 < rem && Continues(rule, ctx, f, p.calls)
    ensures var run := Loop(post, rule, ctx, f, rng, rem, p);
            && |p.rounds| < |run.rounds|
            && run.rounds[|p.rounds|] == Retried(post, f(p.calls), rng, p).rounds[|p.rounds|]
  {
    var q := Retried(post, f(p.calls), rng, p);
    LoopRetries(post, rule, ctx, f, rng, rem, p);
    var run := Loop(post, rule, ctx, f, rng, rem - 1, q);
    assert run.rounds[..|q.rounds|] == q.rounds;
    assert run.rounds[|p.rounds|] == run.rounds[..|q.rounds|][|p.rounds|];
  }

  /** A call that does not keep the loop going ends it: with the context's
      error before the call when the context is done, otherwise with the
      call's own result. */
  lemma LoopStops(post: seq<PostAction>, rule: StopRule, ctx: Context, f: Operation,
                  rng: Rng, rem: int, p: Progress)
    requires 0 < rem && !Continues(rule, ctx, f, p.calls)
    ensures Loop(post, rule, ctx, f, rng, rem, p) ==
              if Done(ctx, p.calls) then Run(Some(ctx.err), p.calls, p.rounds, p.env)
              else Run(f(p.calls).err, p.calls + 1, p.rounds, Stored(p.env, f(p.calls)))
  {
  }

  /** If call `k` is the first to return nil, `Attempt` returns nil after
      exactly `k + 1` calls, with a post round after each earlier failure. */
  lemma AttemptSucceedsOnCall(r: Retryer, limit: int, f: Operation, rng: Rng, env: Env, k: nat)
    requires k < limit
    requires forall j :: 0 <= j < k ==> FailsRecoverably(f(j))
    requires f(k).err.None?
    ensures Attempt(r, limit, Some(f), rng, env).result.None?
    ensures Attempt(r, limit, Some(f), rng, env).calls == k + 1
    ensures |Attempt(r, limit, Some(f), rng, env).rounds| == k
  {
    LoopStopsAt(r.post, CanRecoverOnly, Background, f, rng, limit, Progress(0, [], RunPre(r.pre, env)), k);
  }

  /** If every call fails recoverably, `Attempt` calls the function exactly
      `limit` times (none when `limit <= 0`), runs the post actions after
      every failure including the last, and returns `ErrAttemptsExceeded`
      itself. */
  lemma AttemptExhausts(r: Retryer, limit: int, f: Operation, rng: Rng, env: Env)
    requires forall j :: 0 <= j < limit ==> FailsRecoverably(f(j))
    ensures Attempt(r, limit, Some(f), rng, env).result == Some(AttemptsExceeded)
    ensures Attempt(r, limit, Some(f), rng, env).calls == if 0 < limit then limit else 0
    ensures |Attempt(r, limit, Some(f), rng, env).rounds| == if 0 < limit then limit else 0
  {
    if 0 < limit {
      LoopExhausts(r.post, CanRecoverOnly, Background, f, rng, limit, Progress(0, [], RunPre(r.pre, env)));
    }
  }

  /** A `NoRecover` error on call `k` is returned as it is, after `k + 1`
      calls and `k` post rounds. */
  lemma AttemptStopsOnNoRecover(r: Retryer, limit: int, f: Operation, rng: Rng, env: Env, k: nat, m: string)
    requires k < limit
    requires forall j :: 0 <= j < k ==> FailsRecoverably(f(j))
    requires f(k).err == Some(NoRecover(m))
    ensures Attempt(r, limit, Some(f), rng, env).result == Some(NoRecover(m))
    ensures Attempt(r, limit, Some(f), rng, env).calls == k + 1
    ensures |Attempt(r, limit, Some(f), rng, env).rounds| == k
  {
    LoopStopsAt(r.post, CanRecoverOnly, Background, f, rng, limit, Progress(0, [], RunPre(r.pre, env)), k);
  }

  /** `AttemptWithContext` makes no call once the context is done: if it
      becomes done during call `k` (before the budget runs out), the loop
      returns the context's error without calling again. */
  lemma AttemptWithContextStopsWhenDone(r: Retryer, limit: int, f: Operation, rng: Rng, env: Env,
                                        k: nat, e: Error)
    requires 0 < k < limit
    requires forall j :: 0 <= j < k ==> FailsRecoverably(f(j))
    ensures AttemptWithContext(r, Some(DoneAfter(k, e)), limit, Some(f), rng, env).result == Some(e)
    ensures AttemptWithContext(r, Some(DoneAfter(k, e)), limit, Some(f), rng, env).calls == k
    ensures |AttemptWithContext(r, Some(DoneAfter(k, e)), limit, Some(f), rng, env).rounds| == k
  {
    LoopStopsAt(r.post, CanRecoverOnly, DoneAfter(k, e), f, rng, limit, Progress(0, [], RunPre(r.pre, env)), k);
  }

  /** The engine of retryer.go does not stop on aborted errors: a function that
      always aborts is called `limit` times and the sentinel is returned. */
  lemma AttemptIgnoresAbort(r: Retryer, limit: int, f: Operation, rng: Rng, env: Env)
    requires forall j :: 0 <= j < limit ==> HasAborted(f(j).err)
    ensures Attempt(r, limit, Some(f), rng, env).result == Some(AttemptsExceeded)
    ensures Attempt(r, limit, Some(f), rng, env).calls == if 0 < limit then limit else 0
  {
    forall j | 0 <= j < limit
      ensures FailsRecoverably(f(j))
    {
      AbortedIffBuilt(f(j).err);
    }
    AttemptExhausts(r, limit, f, rng, env);
  }

  /** Under the newer engine an aborted error on call `k` is returned as it
      is after `k + 1` calls. */
  lemma DoWithContextStopsOnAbort(r: Retryer, ctx: Context, limit: int, f: Operation, rng: Rng, env: Env, k: nat)
    requires Usable(Some(ctx)) && k < limit
    requires forall j :: 0 <= j < k ==> Continues(StopOnAbort, ctx, f, j)
    requires !Done(ctx, k) && HasAborted(f(k).err)
    ensures DoWithContext(r, Some(ctx), limit, Some(f), rng, env).result == f(k).err
    ensures DoWithContext(r, Some(ctx), limit, Some(f), rng, env).calls == k + 1
  {
    LoopStopsAt(r.post, StopOnAbort, ctx, f, rng, limit, Progress(0, [], RunPre(r.pre, env)), k);
  }

  /** If call `k` is the first that neither keeps going nor finds the
      context done, and it returns nil, `DoWithContext` returns nil after
      exactly `k + 1` calls. */
  lemma DoWithContextSucceedsOnCall(r: Retryer, ctx: Context, limit: int, f: Operation, rng: Rng, env: Env, k: nat)
    requires Usable(Some(ctx)) && k < limit
    requires forall j :: 0 <= j < k ==> Continues(StopOnAbort, ctx, f, j)
    requires !Done(ctx, k) && f(k).err.None?
    ensures DoWithContext(r, Some(ctx), limit, Some(f), rng, env).result.None?
    ensures DoWithContext(r, Some(ctx), limit, Some(f), rng, env).calls == k + 1
  {
    LoopStopsAt(r.post, StopOnAbort, ctx, f, rng, limit, Progress(0, [], RunPre(r.pre, env)), k);
  }

  /** In a post round numbered `i`, every backoff post action slept its
      `i`-th delay. */
  predicate BackoffRound(post: seq<PostAction>, sleeps: seq<int>, i: nat)
  {
    forall j :: 0 <= j < |post| && j < |sleeps| && post[j].BackoffSleep? ==>
      sleeps[j] == BackoffValue(post[j].initial, post[j].multiplier, i)
  }

  predicate BackoffRounds(post: seq<PostAction>, rounds: seq<seq<int>>)
  {
    forall i :: 0 <= i < |rounds| ==> BackoffRound(post, rounds[i], i)
  }

  /** Every backoff cell holds the delay for post round `n`. */
  predicate BackoffCells(post: seq<PostAction>, env: Env, n: nat)
  {
    forall j :: 0 <= j < |post| && post[j].BackoffSleep? ==>
      j in env.backoff && env.backoff[j] == BackoffValue(post[j].initial, post[j].multiplier, n)
  }

  /** A post round sleeps each backoff's current delay and moves its cell
      on to the next one. */
  lemma RoundAdvancesBackoff(post: seq<PostAction>, rng: Rng, env: Env, n: nat)
    requires BackoffCells(post, env, n)
    ensures BackoffCells(post, RunRound(post, rng, env).env, n + 1)
    ensures BackoffRound(post, RunRound(post, rng, env).sleeps, n)
  {
    RunRoundSleeps(post, rng, env);
  }

  lemma ExtendBackoffRounds(post: seq<PostAction>, rounds: seq<seq<int>>, sleeps: seq<int>)
    requires BackoffRounds(post, rounds)
    requires BackoffRound(post, sleeps, |rounds|)
    ensures BackoffRounds(post, rounds + [sleeps])
  {
    var all := rounds + [sleeps];
    forall i | 0 <= i < |all|
      ensures BackoffRound(post, all[i], i)
    {
      if i < |rounds| {
        assert all[i] == rounds[i];
      } else {
        assert all[i] == sleeps;
      }
    }
  }

  /** A retried call keeps the backoff schedule: the round it adds sleeps
      each backoff's delay for that round, and the cells move on. */
  lemma RetriedKeepsBackoff(post: seq<PostAction>, o: Outcome, rng: Rng, p: Progress)
    requires OnSchedule(post, p)
    ensures OnSchedule(post, Retried(post, o, rng, p))
  {
    var env := Stored(p.env, o);
    assert BackoffCells(post, env, |p.rounds|);
    var round := RunRound(post, rng, env);
    RoundAdvancesBackoff(post, rng, env, |p.rounds|);
    ExtendBackoffRounds(post, p.rounds, round.sleeps);
  }

  /** The loop state keeps the backoff schedule: every round so far slept
      the delays due, and the cells hold those of the next round. */
  predicate OnSchedule(post: seq<PostAction>, p: Progress)
  {
    BackoffCells(post, p.env, |p.rounds|) && BackoffRounds(post, p.rounds)
  }

  lemma {:induction false} LoopKeepsBackoff(post: seq<PostAction>, rule: StopRule, ctx: Context, f: Operation,
                                            rng: Rng, rem: int, p: Progress)
    requires OnSchedule(post, p)
    ensures BackoffRounds(post, Loop(post, rule, ctx, f, rng, rem, p).rounds)
    decreases rem
  {
    if 0 < rem && Continues(rule, ctx, f, p.calls) {
      RetriedKeepsBackoff(post, f(p.calls), rng, p);
      LoopRetries(post, rule, ctx, f, rng, rem, p);
      LoopKeepsBackoff(post, rule, ctx, f, rng, rem - 1, Retried(post, f(p.calls), rng, p));
    } else if 0 < rem {
      LoopStops(post, rule, ctx, f, rng, rem, p);
    } else {
      assert Loop(post, rule, ctx, f, rng, rem, p).rounds == p.rounds;
    }
  }

  /** Within one `do` call of a retryer built by `New`, every exponential
      backoff sleeps its initial delay after the first failure (its pre
      action reset it) and `Scaled(t, multiplier)` after a sleep of `t`. */
  lemma BackoffSchedule(r: Retryer, rule: StopRule, ctx: Option<Context>, limit: int, f: Option<Operation>,
                        rng: Rng, env: Env)
    requires WellFormed(r)
    ensures BackoffRounds(r.post, Do(r, rule, ctx, limit, f, rng, env).rounds)
  {
    if Usable(ctx) && f.Some? {
      PreResetsBackoff(r.post, env);
      LoopKeepsBackoff(r.post, rule, ctx.value, f.value, rng, limit, Progress(0, [], RunPre(r.pre, env)));
    }
  }
}

=== FILE: errors.dfy ===
/** The error values of the retry package: the `failedRetries` kinds of
    errors.go, the `recover` flag of error_noretry.go and the
    `ErrAttemptsExceeded` sentinel of interface.go.

    A Go `error` that may be nil is an `Option<Error>`. Go compares these
    values by pointer (every `errors.New` is a fresh value); the model
    compares them structurally. */
module Errors {
  import opened Wrappers

  /** The `failed` kind, a Go `int8`. */
  newtype Failed = x: int | -128 <= x < 128

  const NoIssue: Failed := 0
  const Exceeded: Failed := 1
  const Abort: Failed := 2

  datatype Error =
      /** `*failedRetries`, built by `ExceededRetries` and `AbortedRetries`. */
    | FailedRetries(msg: string, fail: Failed)
      /** The `recover` value type; only `NoRecover` builds one. */
    | Recover(msg: string, can: bool)
      /** Any error built by `errors.New` or `fmt.Errorf` without `%w`. */
    | Message(text: string)
      /** An error of other code that wraps `cause` (`fmt.Errorf` with `%w`). */
    | Wrapped(text: string, cause: Error)
      /** The `ErrAttemptsExceeded` sentinel. */
    | AttemptsExceeded

  /** `failed.String`: the name registered for a kind, or "unknown". */
  function KindName(f: Failed): (s: string)
    ensures f == NoIssue <==> s == "no-issue"
    ensures f == Exceeded <==> s == "exceeded"
    ensures f == Abort <==> s == "aborted"
    ensures f != NoIssue && f != Exceeded && f != Abort <==> s == "unknown"
  {
    var named := map[NoIssue := "no-issue", Exceeded := "exceeded", Abort := "aborted"];
    if f in named then named[f] else "unknown"
  }

  /** `Error()` of each kind of error value. */
  function ErrorText(e: Error): (r: string)
    ensures e.FailedRetries? ==> |r| >= 16 + |e.msg| && r[|r| - |e.msg|..] == e.msg
    ensures e.FailedRetries? ==> (r[..16] == "[retry:aborted] " <==> e.fail == Abort)
    ensures e.FailedRetries? ==> (|r| >= 17 + |e.msg| && r[..17] == "[retry:exceeded] " <==> e.fail == Exceeded)
    ensures e.Recover? ==> r == e.msg
    ensures e == AttemptsExceeded ==> r == "exceeded allowed attempts"
  {
    match e
    case FailedRetries(msg, fail) =>
      TagNamesKind(fail, msg);
      "[retry:" + KindName(fail) + "] " + msg
    case Recover(msg, _) => msg
    case Message(text) => text
    case Wrapped(text, _) => text
    case AttemptsExceeded => "exceeded allowed attempts"
  }

  /** The text of a `failedRetries` error ends with its message, and its
      tag tells an aborted error and an exceeded one apart from every other
      kind. */
  lemma TagNamesKind(fail: Failed, msg: string)
    ensures var r := "[retry:" + KindName(fail) + "] " + msg;
            && |r| >= 16 + |msg| && r[|r| - |msg|..] == msg
            && (r[..16] == "[retry:aborted] " <==> fail == Abort)
            && (|r| >= 17 + |msg| && r[..17] == "[retry:exceeded] " <==> fail == Exceeded)
  {
    var tag := "[retry:" + KindName(fail) + "] ";
    var r := tag + msg;
    assert r[..|tag|] == tag && r[|r| - |msg|..] == msg;
    if fail == Abort {
      assert tag == "[retry:aborted] ";
    } else if fail == Exceeded {
      assert tag == "[retry:exceeded] ";
      assert r[..17] == tag;
      assert r[7] == 'e';
    } else {
      assert r[7] == tag[7] != 'a' && r[7] != 'e';
    }
  }

  /** `HasAborted`: a direct match on the `failedRetries` type, no unwrapping. */
  function HasAborted(err: Option<Error>): (r: bool)
    ensures r ==> !HasExceeded(err) && CanRecover(err).0
    ensures r ==> err.Some? && err.value.FailedRetries? && ErrorText(err.value) == "[retry:aborted] " + err.value.msg
  {
    match err
    case Some(FailedRetries(_, fail)) => fail == Abort
    case _ => false
  }

  /** `HasExceeded`: a direct match on the `failedRetries` type, no unwrapping. */
  function HasExceeded(err: Option<Error>): (r: bool)
    ensures r ==> CanRecover(err).0
    ensures r ==> err.Some? && err.value.FailedRetries? && ErrorText(err.value) == "[retry:exceeded] " + err.value.msg
  {
    match err
    case Some(FailedRetries(_, fail)) => fail == Exceeded
    case _ => false
  }

  /** `ExceededRetries(msg)`. */
  function ExceededRetries(msg: string): (e: Error)
    ensures HasExceeded(Some(e)) && !HasAborted(Some(e))
    ensures ErrorText(e) == "[retry:exceeded] " + msg
  {
    FailedRetries(msg, Exceeded)
  }

  /** `AbortedRetries(msg)`. The engine of retryer.go does not stop on it:
      `CanRecover` reports it recoverable. */
  function AbortedRetries(msg: string): (e: Error)
    ensures HasAborted(Some(e)) && !HasExceeded(Some(e))
    ensures ErrorText(e) == "[retry:aborted] " + msg
    ensures CanRecover(Some(e)) == (true, Some(e))
  {
    FailedRetries(msg, Abort)
  }

  /** `NoRecover(msg)`: the only error `CanRecover` calls unrecoverable. */
  function NoRecover(msg: string): (e: Error)
    ensures ErrorText(e) == msg
    ensures CanRecover(Some(e)) == (false, Some(e))
    ensures !HasAborted(Some(e)) && !HasExceeded(Some(e))
  {
    Recover(msg, false)
  }

  /** `CanRecover(err)`: the flag of a `recover` value, `true` for anything
      else; the error handed back is always the one passed in. */
  function CanRecover(err: Option<Error>): (r: (bool, Option<Error>))
    ensures r.1 == err
  {
    match err
    case Some(Recover(_, can)) => (can, err)
    case _ => (true, err)
  }

  /** Only `AbortedRetries` values classify as aborted: nil and every other
      error, even one wrapping an aborted error, do not. */
  lemma AbortedIffBuilt(err: Option<Error>)
    ensures HasAborted(err) <==> exists m :: err == Some(AbortedRetries(m))
  {
    if HasAborted(err) {
      assert err == Some(AbortedRetries(err.value.msg));
    }
  }

  /** Only `ExceededRetries` values classify as exceeded. */
  lemma ExceededIffBuilt(err: Option<Error>)
    ensures HasExceeded(err) <==> exists m :: err == Some(ExceededRetries(m))
  {
    if HasExceeded(err) {
      assert err == Some(ExceededRetries(err.value.msg));
    }
  }

  /** `CanRecover` reports `false` for exactly the `NoRecover` values. */
  lemma UnrecoverableIffNoRecover(err: Option<Error>)
    ensures !CanRecover(err).0 <==> exists m :: err == Some(NoRecover(m))
  {
    if !CanRecover(err).0 {
      assert err == Some(NoRecover(err.value.msg));
    }
  }

  /** No classifier looks through a wrapping error. */
  lemma NoUnwrapping(text: string, cause: Error)
    ensures !HasAborted(Some(Wrapped(text, cause)))
    ensures !HasExceeded(Some(Wrapped(text, cause)))
    ensures CanRecover(Some(Wrapped(text, cause))).0
  {
  }
}

=== FILE: legacy_transport.dfy ===
/** The older HTTP transport decorator of transport/round_tripper.go. It
    runs under `AttemptWithContext` of retryer.go. A transport error with no
    response ends the loop (`NoRecover`). A transport error that comes with a
    response is returned unchanged and retried. The checks are arbitrary
    functions of the response.

    The option file of this package is not part of this model: an option is
    any function from configuration to configuration or error, and a check
    is any function from response to error. */
module LegacyTransport {
  import opened Wrappers
  import opened Errors
  import Options
  import Engine
  import TransportOptions
  import Transport

  type CheckFn = Option<TransportOptions.Response> -> Option<Error>

  /** `config`. */
  datatype LegacyConfig = LegacyConfig(rtOpts: seq<Options.RetryOption>, checks: seq<CheckFn>)

  /** `Option`. */
  type LegacyOption = LegacyConfig -> Result<LegacyConfig, Error>

  /** `retryTransport`. */
  datatype RetryTransport = RetryTransport(attempts: int, retryer: Options.Retryer, wrapped: Transport.Wrapped,
                                           checks: seq<CheckFn>)

  /** What one call of the closure did: its error and the response it
      captured. */
  datatype Answer = Answer(err: Option<Error>, resp: Option<TransportOptions.Response>)

  const EmptyConfig: LegacyConfig := LegacyConfig([], [])

  /** The options applied in order; the first error ends the fold. */
  function Configure(opts: seq<LegacyOption>, cf: LegacyConfig): (res: Result<LegacyConfig, Error>)
    ensures res.Failure? ==> exists k :: FailsFirstAt(opts, cf, k) && res.error == opts[k](Configure(opts[..k], cf).value).error
    decreases |opts|, 2
  {
    if |opts| == 0 then Success(cf)
    else
      match opts[0](cf)
      case Failure(e) =>
        assert FailsFirstAt(opts, cf, 0) by {
          assert opts[..0] == [];
        }
        Failure(e)
      case Success(cf') =>
        var res := Configure(opts[1..], cf');
        if res.Failure? then
          FailsFirstShift(opts, cf, res.error);
          res
        else res
  }

  /** Option `k` is reached, the ones before it having succeeded, and fails. */
  predicate FailsFirstAt(opts: seq<LegacyOption>, cf: LegacyConfig, k: int)
    decreases |opts|, 0
  {
    && 0 <= k < |opts|
    && Configure(opts[..k], cf).Success?
    && opts[k](Configure(opts[..k], cf).value).Failure?
  }

  /** A first failure after a succeeding first option is a first failure of
      the whole list, one place further on. */
  lemma FailsFirstShift(opts: seq<LegacyOption>, cf: LegacyConfig, err: Error)
    requires 0 < |opts| && opts[0](cf).Success?
    requires exists k :: FailsFirstAt(opts[1..], opts[0](cf).value, k)
                         && err == opts[1..][k](Configure(opts[1..][..k], opts[0](cf).value).value).error
    ensures exists k :: FailsFirstAt(opts, cf, k) && err == opts[k](Configure(opts[..k], cf).value).error
    decreases |opts|, 1
  {
    var next := opts[0](cf).value;
    var k :| FailsFirstAt(opts[1..], next, k) && err == opts[1..][k](Configure(opts[1..][..k], next).value).error;
    var prefix := opts[..k + 1];
    assert prefix[0] == opts[0] && prefix[1..] == opts[1..][..k];
    assert Configure(prefix, cf) == Configure(opts[1..][..k], next);
    assert opts[1..][k] == opts[k + 1];
    assert FailsFirstAt(opts, cf, k + 1);
  }

  /** Folding two lists of options is folding the first, then the second
      from where the first ended. */
  lemma {:induction false} ConfigureAppend(a: seq<LegacyOption>, b: seq<LegacyOption>, cf: LegacyConfig)
    ensures Configure(a + b, cf) ==
              match Configure(a, cf)
              case Failure(e) => Failure(e)
              case Success(c) => Configure(b, c)
    decreases |a|
  {
    if |a| > 0 {
      assert (a + b)[1..] == a[1..] + b && (a + b)[0] == a[0];
      match a[0](cf)
      case Failure(_) =>
      case Success(c) => ConfigureAppend(a[1..], b, c);
    } else {
      assert a + b == b;
    }
  }

  /** The first option that fails decides the error; the options after it
      are never applied. */
  lemma ConfigureStopsAtFirstError(opts: seq<LegacyOption>, cf: LegacyConfig, k: nat)
    requires k < |opts|
    requires Configure(opts[..k], cf).Success?
    requires opts[k](Configure(opts[..k], cf).value).Failure?
    ensures Configure(opts, cf) == Failure(opts[k](Configure(opts[..k], cf).value).error)
  {
    assert opts == opts[..k] + opts[k..];
    ConfigureAppend(opts[..k], opts[k..], cf);
  }

  predicate AllValid(rtOpts: seq<Options.RetryOption>)
  {
    forall i :: 0 <= i < |rtOpts| ==> Options.Valid(rtOpts[i])
  }

  /** `New(rt, attempts, opts...)`. */
  function New(rt: Option<Transport.Wrapped>, attempts: int, opts: seq<LegacyOption>): (res: Result<RetryTransport, Error>)
    ensures rt.None? ==> res == Failure(Message("roundtripper is nil"))
    ensures rt.Some? && attempts < 1 ==> res == Failure(Message("attempts must be positive"))
    ensures rt.Some? && 1 <= attempts ==>
              (res.Failure? <==> Configure(opts, EmptyConfig).Failure? || !AllValid(Configure(opts, EmptyConfig).value.rtOpts))
    ensures rt.Some? && 1 <= attempts && Configure(opts, EmptyConfig).Failure? ==>
              res == Failure(Configure(opts, EmptyConfig).error)
    ensures rt.Some? && 1 <= attempts && Configure(opts, EmptyConfig).Success? && res.Failure? ==>
              Engine.New(Configure(opts, EmptyConfig).value.rtOpts).Failure?
              && res.error == Engine.New(Configure(opts, EmptyConfig).value.rtOpts).error
    ensures res.Success? ==>
              && res.value.attempts == attempts && rt == Some(res.value.wrapped)
              && Options.WellFormed(res.value.retryer)
              && Configure(opts, EmptyConfig).Success?
              && res.value.checks == Configure(opts, EmptyConfig).value.checks
              && Engine.New(Configure(opts, EmptyConfig).value.rtOpts).Success?
              && res.value.retryer == Engine.New(Configure(opts, EmptyConfig).value.rtOpts).value
  {
    if rt.None? then Failure(Message("roundtripper is nil"))
    else if attempts < 1 then Failure(Message("attempts must be positive"))
    else
      match Configure(opts, EmptyConfig)
      case Failure(e) => Failure(e)
      case Success(cf) =>
        match Engine.New(cf.rtOpts)
        case Failure(e) => Failure(e)
        case Success(retryer) => Success(RetryTransport(attempts, retryer, rt.value, cf.checks))
  }

  /** The first error a check reports, running the checks in order. */
  function FirstFailure(checks: seq<CheckFn>, resp: Option<TransportOptions.Response>): (e: Option<Error>)
    ensures e.None? <==> forall i :: 0 <= i < |checks| ==> checks[i](resp).None?
    decreases |checks|
  {
    if |checks| == 0 then None
    else if checks[0](resp).Some? then checks[0](resp)
    else
      assert forall i :: 1 <= i < |checks| ==> checks[i] == checks[1..][i - 1];
      FirstFailure(checks[1..], resp)
  }

  /** The error reported is that of the first check that fails. */
  lemma {:induction false} FirstFailureIsFirst(checks: seq<CheckFn>, resp: Option<TransportOptions.Response>)
    requires FirstFailure(checks, resp).Some?
    ensures exists k :: 0 <= k < |checks| && FirstFailure(checks, resp) == checks[k](resp)
                        && forall i :: 0 <= i < k ==> checks[i](resp).None?
    decreases |checks|
  {
    if checks[0](resp).None? {
      var rest := checks[1..];
      FirstFailureIsFirst(rest, resp);
      var k :| 0 <= k < |rest| && FirstFailure(rest, resp) == rest[k](resp)
               && forall i :: 0 <= i < k ==> rest[i](resp).None?;
      assert FirstFailure(checks, resp) == FirstFailure(rest, resp);
      assert checks[k + 1] == rest[k];
      forall i | 0 <= i < k + 1
        ensures checks[i](resp).None?
      {
        if 0 < i {
          assert checks[i] == rest[i - 1];
        }
      }
    }
  }

  /** The closure `RoundTrip` hands the engine, for one exchange. */
  function AttemptOnce(checks: seq<CheckFn>, ex: Transport.Exchange): (a: Answer)
    ensures ex.resp.None? && ex.err.Some? ==> a == Answer(Some(NoRecover(ErrorText(ex.err.value))), None)
    ensures ex.resp.Some? && ex.err.Some? ==> a == Answer(ex.err, None)
    ensures ex.err.None? ==> (a.err.None? <==> forall i :: 0 <= i < |checks| ==> checks[i](ex.resp).None?)
    ensures a.err.None? ==> ex.err.None? && a.resp == ex.resp
    ensures a.err.Some? ==> a.resp.None?
    ensures ex.err.None? ==> a.err == FirstFailure(checks, ex.resp)
  {
    if ex.resp.None? && ex.err.Some? then Answer(Some(NoRecover(ErrorText(ex.err.value))), None)
    else if ex.err.Some? then Answer(ex.err, None)
    else
      var e := FirstFailure(checks, ex.resp);
      if e.Some? then Answer(e, None) else Answer(None, ex.resp)
  }

  /** When check `k` is the first to fail on an answer that came without a
      transport error, the attempt fails with check `k`'s own error. */
  lemma AttemptOnceStopsAt(checks: seq<CheckFn>, ex: Transport.Exchange, k: nat)
    requires ex.err.None? && k < |checks| && checks[k](ex.resp).Some?
    requires forall i :: 0 <= i < k ==> checks[i](ex.resp).None?
    ensures AttemptOnce(checks, ex).err == checks[k](ex.resp)
  {
    FirstFailureIsFirst(checks, ex.resp);
    var j :| 0 <= j < |checks| && FirstFailure(checks, ex.resp) == checks[j](ex.resp)
             && forall i :: 0 <= i < j ==> checks[i](ex.resp).None?;
  }

  /** The closure as the engine sees it. */
  function Op(t: RetryTransport): Engine.Operation
  {
    (n: nat) => Engine.Outcome(AttemptOnce(t.checks, t.wrapped(n)).err, map[])
  }

  /** The response the closure captured on send `n`, when that send
      passed. */
  function Answered(t: RetryTransport, n: nat): (resp: Option<TransportOptions.Response>)
    requires Op(t)(n).err.None?
    ensures t.wrapped(n) == Transport.Exchange(resp, None)
    ensures forall i :: 0 <= i < |t.checks| ==> t.checks[i](resp).None?
  {
    AttemptOnce(t.checks, t.wrapped(n)).resp
  }

  /** `RoundTrip(req)`. No body is ever closed. */
  function RoundTrip(t: RetryTransport, req: Option<Transport.Request>, rng: Options.Rng, env: Options.Env)
    : (reply: Transport.Reply)
    ensures req.None? ==> reply == Transport.Reply(None, Some(Message("request is nil")), 0, {}, [], env)
    ensures reply.sent <= (if 0 < t.attempts then t.attempts else 0)
    ensures reply.err.None? ==>
              && 0 < reply.sent
              && t.wrapped(reply.sent - 1) == Transport.Exchange(reply.resp, None)
              && forall i :: 0 <= i < |t.checks| ==> t.checks[i](reply.resp).None?
    ensures reply.err.Some? ==> reply.resp.None?
    ensures reply.closed == {}
  {
    if req.None? then Transport.Reply(None, Some(Message("request is nil")), 0, {}, [], env)
    else
      var run := Engine.AttemptWithContext(t.retryer, Some(req.value.ctx), t.attempts, Some(Op(t)), rng, env);
      var resp := if run.result.None? then Answered(t, run.calls - 1) else None;
      Transport.Reply(resp, run.result, run.calls, {}, run.rounds, run.env)
  }

  function Start(t: RetryTransport, env: Options.Env): Engine.Progress
  {
    Engine.Progress(0, [], Options.RunPre(t.retryer.pre, env))
  }

  /** A connection failure (an error with no response) on the first send
      ends `RoundTrip` at once with a `NoRecover` error carrying its text. */
  lemma ConnectionFailureStops(t: RetryTransport, ctx: Engine.Context, rng: Options.Rng, env: Options.Env, e: Error)
    requires Engine.Usable(Some(ctx)) && 1 <= t.attempts
    requires t.wrapped(0) == Transport.Exchange(None, Some(e))
    ensures RoundTrip(t, Some(Transport.Request(ctx)), rng, env).sent == 1
    ensures RoundTrip(t, Some(Transport.Request(ctx)), rng, env).err == Some(NoRecover(ErrorText(e)))
  {
    assert Op(t)(0).err == Some(NoRecover(ErrorText(e)));
    Engine.LoopStopsAt(t.retryer.post, Engine.CanRecoverOnly, ctx, Op(t), rng, t.attempts, Start(t, env), 0);
  }

  /** Transport errors that come with a response are retried like any
      recoverable error, even aborted ones: with one on every send, the
      wrapped transport is called `attempts` times and `ErrAttemptsExceeded`
      is returned. */
  lemma ResponseErrorsRetried(t: RetryTransport, rng: Options.Rng, env: Options.Env)
    requires 1 <= t.attempts
    requires forall n: nat :: n < t.attempts ==>
               t.wrapped(n).resp.Some? && t.wrapped(n).err.Some? && CanRecover(t.wrapped(n).err).0
    ensures RoundTrip(t, Some(Transport.Request(Engine.Background)), rng, env).sent == t.attempts
    ensures RoundTrip(t, Some(Transport.Request(Engine.Background)), rng, env).err == Some(AttemptsExceeded)
  {
    forall j: nat | j < t.attempts
      ensures Engine.FailsRecoverably(Op(t)(j))
    {
      assert Op(t)(j).err == t.wrapped(j).err;
    }
    Engine.AttemptExhausts(t.retryer, t.attempts, Op(t), rng, env);
  }

  /** If send `k` is the first whose response passes every check, after
      recoverable failures, `RoundTrip` returns that response after
      `k + 1` sends. */
  lemma ReturnsFirstPass(t: RetryTransport, k: nat, rng: Options.Rng, env: Options.Env)
    requires k < t.attempts
    requires forall n: nat :: n < k ==> Engine.FailsRecoverably(Op(t)(n))
    requires t.wrapped(k).err.None?
    requires forall i :: 0 <= i < |t.checks| ==> t.checks[i](t.wrapped(k).resp).None?
    ensures RoundTrip(t, Some(Transport.Request(Engine.Background)), rng, env).sent == k + 1
    ensures RoundTrip(t, Some(Transport.Request(Engine.Background)), rng, env).err.None?
    ensures RoundTrip(t, Some(Transport.Request(Engine.Background)), rng, env).resp == t.wrapped(k).resp
  {
    assert Op(t)(k).err.None?;
    Engine.AttemptSucceedsOnCall(t.retryer, t.attempts, Op(t), rng, env, k);
  }
}

=== FILE: options.dfy ===
/** The retry options of option.go: what each option validates, the pre and
    post actions it registers on a retryer, and what those actions do when
    the attempt loop runs them.

    Sleeping is not performed: a post action yields the duration (in
    nanoseconds) it would sleep. The random generator behind `WithJitter` is
    the parameter `rng`; the shared `d` of an exponential backoff and the
    rate-limit delay slot read by `WithDynamicDelay` are cells of `Env`. */
module Options {
  import opened Wrappers
  import opened Errors

  /** A `*zap.Logger`; what it logs is not modelled. */
  datatype Logger = Nop | Named(name: string)

  /** A pre-execution action. The only one the options register is the reset
      of the stored delay of the backoff post action at index `post`. */
  datatype PreAction = ResetBackoff(post: nat, initial: int)

  /** A post-execution action, run after every recoverable failure. */
  datatype PostAction =
    | FixedSleep(delay: int)
    | JitterSleep(delay: int)
    | BackoffSleep(initial: int, multiplier: real)
    | DynamicSleep(cell: nat)

  /** The `retry` struct: its logger and its registered actions. */
  datatype Retryer = Retryer(log: Logger, pre: seq<PreAction>, post: seq<PostAction>)

  /** The `Option` values of option.go. `WithDynamicDelay` is called by the
      HTTP transport but is not part of option.go; its slot is a rate cell. */
  datatype RetryOption =
    | WithLogger(log: Option<Logger>)
    | WithFixedDelay(delay: int)
    | WithJitter(delay: int)
    | WithExponentialBackoff(delay: int, multiplier: real)
    | WithDynamicDelay(cell: nat)

  /** The cells shared by the actions: the stored delay of each backoff post
      action (keyed by its index in `post`), each rate-limit delay slot, and
      how many random draws the jitter actions have taken. */
  datatype Env = Env(backoff: map<nat, int>, rate: map<nat, int>, draws: nat)

  /** The random source: the value of the n-th draw. */
  type Rng = nat -> int

  /** One post round: the duration each post action slept, in registration
      order, and the cells afterwards. */
  datatype Round = Round(sleeps: seq<int>, env: Env)

  /** The acceptance rule of each option, as the option's doc promises it. */
  predicate Valid(opt: RetryOption)
  {
    match opt
    case WithLogger(log) => log != None
    case WithFixedDelay(d) => 0 < d
    case WithJitter(d) => 0 < d
    case WithExponentialBackoff(d, m) => 0 < d && 1.0 <= m
    case WithDynamicDelay(_) => true
  }

  /** The post actions an option registers when it is accepted. */
  function Registered(opt: RetryOption): seq<PostAction>
  {
    match opt
    case WithLogger(_) => []
    case WithFixedDelay(d) => [FixedSleep(d)]
    case WithJitter(d) => [JitterSleep(d)]
    case WithExponentialBackoff(d, m) => [BackoffSleep(d, m)]
    case WithDynamicDelay(c) => [DynamicSleep(c)]
  }

  /** The pre actions a well-formed retryer has for its post actions: one
      reset per backoff post action, in the same order. */
  function ResetsFor(post: seq<PostAction>): seq<PreAction>
  {
    if |post| == 0 then []
    else
      var j := |post| - 1;
      ResetsFor(post[..j]) + (if post[j].BackoffSleep? then [ResetBackoff(j, post[j].initial)] else [])
  }

  /** Every retryer built by the options has this shape. */
  predicate WellFormed(r: Retryer)
  {
    r.pre == ResetsFor(r.post)
  }

  /** Applying one option to a retryer under construction. */
  function Apply(opt: RetryOption, r: Retryer): (res: Result<Retryer, Error>)
    ensures res.Failure? <==> !Valid(opt)
    ensures res.Success? ==> res.value.post == r.post + Registered(opt)
    ensures res.Success? && opt.WithExponentialBackoff? ==>
              res.value.pre == r.pre + [ResetBackoff(|r.post|, opt.delay)]
    ensures res.Success? && !opt.WithExponentialBackoff? ==> res.value.pre == r.pre
    ensures res.Success? ==> res.value.log == (if opt.WithLogger? then opt.log.value else r.log)
    ensures res.Success? && WellFormed(r) ==> WellFormed(res.value)
  {
    match opt
    case WithLogger(log) =>
      if log.None? then Failure(Message("logger is nil"))
      else Success(r.(log := log.value))
    case WithFixedDelay(d) =>
      if d <= 0 then Failure(Message("delay must be a positive value"))
      else Success(r.(post := r.post + [FixedSleep(d)]))
    case WithJitter(d) =>
      if d <= 0 then Failure(Message("delay must be a positive value"))
      else Success(r.(post := r.post + [JitterSleep(d)]))
    case WithExponentialBackoff(d, m) =>
      if d <= 0 then Failure(Message("delay must be positive value"))
      else if m < 1.0 then Failure(Message("multiplier must be greater than 1.0"))
      else
        var r' := r.(pre := r.pre + [ResetBackoff(|r.post|, d)], post := r.post + [BackoffSleep(d, m)]);
        assert r'.post[..|r.post|] == r.post;
        Success(r')
    case WithDynamicDelay(c) =>
      Success(r.(post := r.post + [DynamicSleep(c)]))
  }

  /** Whether an option is rejected, and with which error, does not depend
      on the retryer it is applied to. */
  lemma ApplyErrorIgnoresRetryer(opt: RetryOption, r: Retryer, r': Retryer)
    ensures Apply(opt, r).Failure? <==> Apply(opt, r').Failure?
    ensures Apply(opt, r).Failure? ==> Apply(opt, r).error == Apply(opt, r').error
  {
  }

  /** Go's conversion of a float to an integer: truncation toward zero. */
  function Trunc(x: real): int
  {
    if 0.0 <= x then x.Floor else -((-x).Floor)
  }

  /** The delay a backoff stores after sleeping `t`:
      `int64(float64(t) * multiplier)`. */
  function Scaled(t: int, multiplier: real): int
  {
    Trunc(t as real * multiplier)
  }

  /** The delay a backoff sleeps after `n` earlier sleeps since its reset. */
  function BackoffValue(initial: int, multiplier: real, n: nat): int
  {
    if n == 0 then initial
    else Scaled(BackoffValue(initial, multiplier, n - 1), multiplier)
  }

  /** What the pre actions do, in registration order. */
  function RunPre(pre: seq<PreAction>, env: Env): (out: Env)
    ensures out.rate == env.rate && out.draws == env.draws
  {
    if |pre| == 0 then env
    else
      var prev := RunPre(pre[..|pre| - 1], env);
      var a := pre[|pre| - 1];
      prev.(backoff := prev.backoff[a.post := a.initial])
  }

  /** What the `j`-th post action does: the duration it sleeps and the cells
      afterwards. A jitter delay of zero or less is never registered (Go's
      `rand.Int63n` would panic on it); it sleeps nothing here. */
  function Act(a: PostAction, j: nat, rng: Rng, env: Env): (r: (int, Env))
    ensures SleepFits(a, r.0)
    ensures r.1.rate == env.rate
    ensures a.DynamicSleep? ==> r.0 == Lookup(env.rate, a.cell, 0)
    ensures a.BackoffSleep? ==> r.0 == Lookup(env.backoff, j, a.initial)
                                && r.1.backoff == env.backoff[j := Scaled(r.0, a.multiplier)]
    ensures !a.BackoffSleep? ==> r.1.backoff == env.backoff
  {
    match a
    case FixedSleep(d) => (d, env)
    case JitterSleep(d) =>
      (if 0 < d then rng(env.draws) % d else 0, env.(draws := env.draws + 1))
    case BackoffSleep(initial, m) =>
      var t := Lookup(env.backoff, j, initial);
      (t, env.(backoff := env.backoff[j := Scaled(t, m)]))
    case DynamicSleep(c) => (Lookup(env.rate, c, 0), env)
  }

  /** What a single sleep of a post action may be, for the stateless kinds. */
  predicate SleepFits(a: PostAction, t: int)
  {
    match a
    case FixedSleep(d) => t == d
    case JitterSleep(d) => if 0 < d then 0 <= t < d else t == 0
    case _ => true
  }

  /** A round holds one sleep per post action, each fitting its action. */
  predicate RoundFits(post: seq<PostAction>, sleeps: seq<int>)
  {
    |sleeps| == |post| && forall j :: 0 <= j < |post| ==> SleepFits(post[j], sleeps[j])
  }

  /** One round of the post actions, run in registration order. */
  function RunRound(post: seq<PostAction>, rng: Rng, env: Env): (out: Round)
    ensures RoundFits(post, out.sleeps)
    ensures out.env.rate == env.rate
    decreases |post|
  {
    if |post| == 0 then Round([], env)
    else
      var j := |post| - 1;
      var prev := RunRound(post[..j], rng, env);
      var (t, env') := Act(post[j], j, rng, prev.env);
      Round(prev.sleeps + [t], env')
  }

  /** What a round sleeps: a dynamic delay sleeps its slot's value; a
      backoff sleeps the value in its own cell, or its initial delay when the
      cell is empty, and stores the scaled delay there. */
  lemma {:induction false} RunRoundSleeps(post: seq<PostAction>, rng: Rng, env: Env)
    ensures var out := RunRound(post, rng, env);
            forall j :: 0 <= j < |post| && post[j].DynamicSleep? ==>
              out.sleeps[j] == Lookup(env.rate, post[j].cell, 0)
    ensures var out := RunRound(post, rng, env);
            forall j :: 0 <= j < |post| && post[j].BackoffSleep? ==>
              && out.sleeps[j] == Lookup(env.backoff, j, post[j].initial)
              && j in out.env.backoff
              && out.env.backoff[j] == Scaled(out.sleeps[j], post[j].multiplier)
    decreases |post|
  {
    if |post| > 0 {
      var n := |post| - 1;
      var before := post[..n];
      RunRoundSleeps(before, rng, env);
      RunRoundKeepsCells(before, rng, env);
      var prev := RunRound(before, rng, env);
      var act := Act(post[n], n, rng, prev.env);
      assert RunRound(post, rng, env) == Round(prev.sleeps + [act.0], act.1);
      assert forall j :: 0 <= j < n ==> before[j] == post[j];
    }
  }

  /** A round leaves every cell that no backoff owns as it was: an empty one
      stays empty and a filled one keeps its value. */
  lemma {:induction false} RunRoundKeepsCells(post: seq<PostAction>, rng: Rng, env: Env)
    ensures var out := RunRound(post, rng, env);
            forall k: nat :: k !in env.backoff && (|post| <= k || !post[k].BackoffSleep?) ==> k !in out.env.backoff
    ensures var out := RunRound(post, rng, env);
            forall k: nat :: k in env.backoff && (|post| <= k || !post[k].BackoffSleep?) ==>
              k in out.env.backoff && out.env.backoff[k] == env.backoff[k]
    decreases |post|
  {
    if |post| > 0 {
      var n := |post| - 1;
      var before := post[..n];
      RunRoundKeepsCells(before, rng, env);
      var prev := RunRound(before, rng, env);
      var act := Act(post[n], n, rng, prev.env);
      assert RunRound(post, rng, env) == Round(prev.sleeps + [act.0], act.1);
      assert forall j :: 0 <= j < n ==> before[j] == post[j];
    }
  }

  /** The pre actions of a well-formed retryer set every backoff cell to its
      initial delay, whatever the cells held before. */
  lemma {:induction false} PreResetsBackoff(post: seq<PostAction>, env: Env)
    ensures forall j :: 0 <= j < |post| && post[j].BackoffSleep? ==>
              j in RunPre(ResetsFor(post), env).backoff
              && RunPre(ResetsFor(post), env).backoff[j] == post[j].initial
    decreases |post|
  {
    if |post| > 0 {
      var j := |post| - 1;
      PreResetsBackoff(post[..j], env);
      var extra := if post[j].BackoffSleep? then [ResetBackoff(j, post[j].initial)] else [];
      var pre := ResetsFor(post[..j]);
      assert ResetsFor(post) == pre + extra;
      if post[j].BackoffSleep? {
        assert (pre + extra)[..|pre|] == pre;
      } else {
        assert pre + extra == pre;
      }
    }
  }

  /** With a multiplier of at least 1 the backoff delays never shrink. */
  lemma {:induction false} BackoffNeverShrinks(initial: int, multiplier: real, n: nat)
    requires 0 <= initial && 1.0 <= multiplier
    ensures initial <= BackoffValue(initial, multiplier, n) <= BackoffValue(initial, multiplier, n + 1)
  {
    if n > 0 {
      BackoffNeverShrinks(initial, multiplier, n - 1);
    }
    ScaledGrows(BackoffValue(initial, multiplier, n), multiplier);
  }

  lemma ScaledGrows(t: int, m: real)
    requires 0 <= t && 1.0 <= m
    ensures t <= Scaled(t, m)
  {
    var x := t as real;
    assert x * m - x == x * (m - 1.0);
    assert x <= x * m;
  }

  function Pow(k: nat, n: nat): nat
  {
    if n == 0 then 1 else k * Pow(k, n - 1)
  }

  /** With a whole multiplier no truncation happens: the n-th delay is
      exactly `initial * multiplier^n`. */
  lemma {:induction false} BackoffGeometric(initial: nat, k: nat, n: nat)
    ensures BackoffValue(initial, k as real, n) == initial * Pow(k, n)
  {
    if n > 0 {
      BackoffGeometric(initial, k, n - 1);
      var t := initial * Pow(k, n - 1);
      WholeProduct(t, k);
      calc {
        initial * Pow(k, n);
        initial * (k * Pow(k, n - 1));
        { MulShift(initial, k, Pow(k, n - 1)); }
        t * k;
      }
    }
  }

  lemma WholeProduct(t: nat, k: nat)
    ensures Scaled(t, k as real) == t * k
  {
    assert t as real * k as real == (t * k) as real;
  }

  lemma MulShift(a: int, b: int, c: int)
    ensures a * (b * c) == (a * c) * b
  {
  }

  /** With a fractional multiplier each step truncates: a backoff of 1ns with
      multiplier 1.5 stays at 1ns, where `1 * 1.5^2` would be 2.25. */
  lemma BackoffTruncationStalls()
    ensures BackoffValue(1, 1.5, 1) == 1 && BackoffValue(1, 1.5, 2) == 1
  {
    assert BackoffValue(1, 1.5, 1) == Trunc(1.5) == 1;
    assert BackoffValue(1, 1.5, 2) == Trunc(1.5) == 1;
  }
}

=== FILE: status.dfy ===
/** The status-code groups of http/status/group.go. */
module Status {

  const Group1xx: int := 1
  const Group2xx: int := 2
  const Group3xx: int := 3
  const Group4xx: int := 4
  const Group5xx: int := 5

  /** `Group(status)`: Go's integer division by 100, which truncates toward
      zero. For a status of 0 or more the group is the hundreds of the
      status; below 0 the quotient rounds up. */
  function Group(status: int): (g: int)
    ensures 0 <= status ==> 100 * g <= status < 100 * g + 100
    ensures status < 0 ==> 100 * g - 100 < status <= 100 * g
  {
    if 0 <= status then status / 100 else -((-status) / 100)
  }

  /** `GroupText(group)`: "1xx" to "5xx" for the five groups, "?xx" for
      anything else. */
  function GroupText(group: int): (s: string)
    ensures |s| == 3 && s[1..] == "xx"
    ensures Group1xx <= group <= Group5xx ==> s[0] as int == '0' as int + group
    ensures !(Group1xx <= group <= Group5xx) ==> s == "?xx"
  {
    var text := map[Group1xx := "1xx", Group2xx := "2xx", Group3xx := "3xx", Group4xx := "4xx", Group5xx := "5xx"];
    if group in text then text[group] else "?xx"
  }

  /** A status in the 100 to 599 range gets the label of its hundreds. */
  lemma GroupTextOfStatus(status: int)
    requires 100 <= status < 600
    ensures GroupText(Group(status))[0] as int == '0' as int + status / 100
    ensures GroupText(Group(status))[1..] == "xx"
  {
  }
}

=== FILE: transport.dfy ===
/** The HTTP transport decorator of http/transport/round_tripper.go: `New`
    validates its arguments and folds the options; `RoundTrip` runs the
    wrapped transport under the engine, aborting on a transport error and
    running the response checks on every answer.

    The wrapped transport is scripted: send number `n` (counting from 0)
    returns `wrapped(n)`. The engine's `DoWithContext` is the newer engine
    of `Engine.DoWithContext`, which also stops on aborted errors. */
module Transport {
  import opened Wrappers
  import opened Errors
  import Options
  import Engine
  import opened TransportOptions

  /** What one `RoundTrip` of the wrapped transport returned. */
  datatype Exchange = Exchange(resp: Option<Response>, err: Option<Error>)

  /** The wrapped `http.RoundTripper`: the exchange of each send, by number. */
  type Wrapped = nat -> Exchange

  /** An `*http.Request`, reduced to its context. */
  datatype Request = Request(ctx: Engine.Context)

  /** `retryTransport`. */
  datatype RetryTransport = RetryTransport(attempts: int, wrapped: Wrapped, retryer: Options.Retryer, checks: seq<Check>)

  /** What one call of the closure passed to the engine did: the error it
      returned, the delay slots its checks stored, whether it closed the
      response body, and the response it captured. */
  datatype Step = Step(err: Option<Error>, stores: map<nat, int>, closed: bool, resp: Option<Response>)

  /** The observable result of `RoundTrip`: the response and error returned,
      how many times the wrapped transport was called, which sends had their
      body closed, the sleeps of every post round, and the cells. */
  datatype Reply = Reply(resp: Option<Response>, err: Option<Error>, sent: nat, closed: set<nat>,
                         rounds: seq<seq<int>>, env: Options.Env)

  const EmptyConfig: Config := Config([], [], {})

  /** `New(rt, attempts, opts...)`. */
  function New(rt: Option<Wrapped>, attempts: int, opts: seq<TransportOption>): (res: Result<RetryTransport, Error>)
    ensures rt.None? ==> res == Failure(Message("roundtripper is nil"))
    ensures rt.Some? && attempts < 1 ==> res == Failure(Message("attempts must be positive"))
    ensures res.Failure? <==>
              || rt.None? || attempts < 1
              || (exists i :: 0 <= i < |opts| && Malformed(opts[i]))
              || !ClashFree({}, AllCodes(opts))
              || (exists i :: 0 <= i < |opts| && HasInvalidRetryOption(opts[i]))
    ensures rt.Some? && 1 <= attempts && Configure(opts, EmptyConfig, 0).Failure? ==>
              res == Failure(Configure(opts, EmptyConfig, 0).error)
    ensures rt.Some? && 1 <= attempts && Configure(opts, EmptyConfig, 0).Success? && res.Failure? ==>
              Engine.New(Configure(opts, EmptyConfig, 0).value.rtOpts).Failure?
              && res.error == Engine.New(Configure(opts, EmptyConfig, 0).value.rtOpts).error
    ensures res.Success? ==>
              && res.value.attempts == attempts
              && rt == Some(res.value.wrapped)
              && Options.WellFormed(res.value.retryer)
              && Configure(opts, EmptyConfig, 0).Success?
              && res.value.checks == Configure(opts, EmptyConfig, 0).value.checks
              && Engine.New(Configure(opts, EmptyConfig, 0).value.rtOpts).Success?
              && res.value.retryer == Engine.New(Configure(opts, EmptyConfig, 0).value.rtOpts).value
  {
    if rt.None? then Failure(Message("roundtripper is nil"))
    else if attempts < 1 then Failure(Message("attempts must be positive"))
    else
      ConfigureFailsIff(opts, EmptyConfig, 0);
      match Configure(opts, EmptyConfig, 0)
      case Failure(e) => Failure(e)
      case Success(cf) =>
        ConfigureKeepsValidity(opts, EmptyConfig, 0);
        match Engine.New(cf.rtOpts)
        case Failure(e) => Failure(e)
        case Success(retryer) => Success(RetryTransport(attempts, rt.value, retryer, cf.checks))
  }

  /** The verdict of every check on one response, in order, as if each ran. */
  function Verdicts(checks: seq<Check>, resp: Option<Response>): (vs: seq<Verdict>)
    ensures |vs| == |checks|
    ensures forall i :: 0 <= i < |checks| ==> vs[i] == Evaluate(checks[i], resp)
    decreases |checks|
  {
    if |checks| == 0 then [] else [Evaluate(checks[0], resp)] + Verdicts(checks[1..], resp)
  }

  /** The slot stores of the given verdicts merged in order: a later store
      to the same slot wins. */
  function Merged(vs: seq<Verdict>): map<nat, int>
    decreases |vs|
  {
    if |vs| == 0 then map[] else vs[0].stores + Merged(vs[1..])
  }

  /** Verdicts taken in order until one fails: that one's error ends the
      run, and the stores of the verdicts taken are merged. */
  function Combine(vs: seq<Verdict>): (v: Verdict)
    ensures v.err.None? <==> forall i :: 0 <= i < |vs| ==> vs[i].err.None?
    ensures v.err.None? ==> v.stores == Merged(vs)
    ensures forall slot :: slot in v.stores ==> exists i :: 0 <= i < |vs| && slot in vs[i].stores
    decreases |vs|
  {
    if |vs| == 0 then Verdict(None, map[])
    else if vs[0].err.Some? then vs[0]
    else
      var rest := Combine(vs[1..]);
      assert forall i :: 1 <= i < |vs| ==> vs[i] == vs[1..][i - 1];
      Verdict(rest.err, vs[0].stores + rest.stores)
  }

  /** When verdict `k` is the first failure, it decides the error, and only
      the verdicts up to it contribute stores. */
  lemma {:induction false} CombineStopsAt(vs: seq<Verdict>, k: nat)
    requires k < |vs| && vs[k].err.Some?
    requires forall i :: 0 <= i < k ==> vs[i].err.None?
    ensures Combine(vs) == Verdict(vs[k].err, Merged(vs[..k + 1]))
    decreases k
  {
    var first := vs[..k + 1];
    assert first[0] == vs[0];
    if k == 0 {
      assert first[1..] == [];
      assert vs[0].stores + map[] == vs[0].stores;
    } else {
      var rest := vs[1..];
      assert forall i :: 0 <= i < |rest| ==> rest[i] == vs[i + 1];
      CombineStopsAt(rest, k - 1);
      assert first[1..] == rest[..k];
    }
  }

  /** A failed combination reports the error of the first failing verdict. */
  lemma {:induction false} CombineReportsFirstFailure(vs: seq<Verdict>)
    requires Combine(vs).err.Some?
    ensures exists k :: 0 <= k < |vs| && Combine(vs).err == vs[k].err
                        && forall i :: 0 <= i < k ==> vs[i].err.None?
    decreases |vs|
  {
    if vs[0].err.None? {
      var rest := vs[1..];
      CombineReportsFirstFailure(rest);
      var k :| 0 <= k < |rest| && Combine(rest).err == rest[k].err
               && forall i :: 0 <= i < k ==> rest[i].err.None?;
      assert vs[k + 1] == rest[k];
      forall i | 0 <= i < k + 1
        ensures vs[i].err.None?
      {
        if 0 < i {
          assert vs[i] == rest[i - 1];
        }
      }
    }
  }

  /** The checks run in order; the first failure ends the run. Rate-limit
      checks store into their slots as they run. */
  function RunChecks(checks: seq<Check>, resp: Option<Response>): (v: Verdict)
    ensures v.err.None? <==> forall i :: 0 <= i < |checks| ==> Evaluate(checks[i], resp).err.None?
    ensures forall slot :: slot in v.stores ==> exists i :: 0 <= i < |checks| && checks[i].RateLimit? && checks[i].cell == slot
    ensures v.err.None? ==> v.stores == Merged(Verdicts(checks, resp))
  {
    Combine(Verdicts(checks, resp))
  }

  /** When check `k` is the first to fail, the run returns its error, and
      only the checks up to `k` store into slots: the later ones never run. */
  lemma RunChecksStopsAt(checks: seq<Check>, resp: Option<Response>, k: nat)
    requires k < |checks| && Evaluate(checks[k], resp).err.Some?
    requires forall i :: 0 <= i < k ==> Evaluate(checks[i], resp).err.None?
    ensures RunChecks(checks, resp) == Verdict(Evaluate(checks[k], resp).err, Merged(Verdicts(checks, resp)[..k + 1]))
  {
    CombineStopsAt(Verdicts(checks, resp), k);
  }

  /** A failed run reports the error of the first check that failed. */
  lemma RunChecksReportsFirstFailure(checks: seq<Check>, resp: Option<Response>)
    requires RunChecks(checks, resp).err.Some?
    ensures exists k :: 0 <= k < |checks| && RunChecks(checks, resp).err == Evaluate(checks[k], resp).err
                        && forall i :: 0 <= i < k ==> Evaluate(checks[i], resp).err.None?
  {
    var vs := Verdicts(checks, resp);
    CombineReportsFirstFailure(vs);
    var k :| 0 <= k < |vs| && Combine(vs).err == vs[k].err && forall i :: 0 <= i < k ==> vs[i].err.None?;
    assert RunChecks(checks, resp).err == Evaluate(checks[k], resp).err;
  }

  /** The closure `RoundTrip` hands the engine, for one exchange: a transport
      error aborts; otherwise the checks run, a failing check closes the body
      of the response it rejected, and a passing response is captured. */
  function AttemptOnce(checks: seq<Check>, ex: Exchange): (s: Step)
    ensures ex.err.Some? ==> s == Step(Some(AbortedRetries(ErrorText(ex.err.value))), map[], false, None)
    ensures ex.err.None? ==>
              (s.err.None? <==> forall i :: 0 <= i < |checks| ==> Evaluate(checks[i], ex.resp).err.None?)
    ensures s.closed <==>
              ex.err.None? && s.err.Some? && ex.resp.Some? && ex.resp.value.hasBody
    ensures s.err.None? ==> ex.err.None? && s.resp == ex.resp
    ensures s.err.Some? ==> s.resp.None?
  {
    if ex.err.Some? then Step(Some(AbortedRetries(ErrorText(ex.err.value))), map[], false, None)
    else
      var v := RunChecks(checks, ex.resp);
      if v.err.Some? then Step(v.err, v.stores, ex.resp.Some? && ex.resp.value.hasBody, None)
      else Step(None, v.stores, false, ex.resp)
  }

  /** On an answer that came without a transport error, the attempt's error
      and slot stores are those of running the checks in order. */
  lemma AttemptOnceRunsChecks(checks: seq<Check>, ex: Exchange)
    requires ex.err.None?
    ensures Verdict(AttemptOnce(checks, ex).err, AttemptOnce(checks, ex).stores) == RunChecks(checks, ex.resp)
  {
  }

  /** When check `k` is the first to fail on an answer that came without a
      transport error, the attempt fails with check `k`'s error, and only the
      checks up to `k` have stored into their slots. */
  lemma AttemptOnceStopsAt(checks: seq<Check>, ex: Exchange, k: nat)
    requires ex.err.None? && k < |checks| && Evaluate(checks[k], ex.resp).err.Some?
    requires forall i :: 0 <= i < k ==> Evaluate(checks[i], ex.resp).err.None?
    ensures AttemptOnce(checks, ex).err == Evaluate(checks[k], ex.resp).err
    ensures AttemptOnce(checks, ex).stores == Merged(Verdicts(checks, ex.resp)[..k + 1])
  {
    AttemptOnceRunsChecks(checks, ex);
    RunChecksStopsAt(checks, ex.resp, k);
  }

  /** The closure as the engine sees it. */
  function Op(t: RetryTransport): Engine.Operation
  {
    (n: nat) => var s := AttemptOnce(t.checks, t.wrapped(n)); Engine.Outcome(s.err, s.stores)
  }

  /** Send number `n` fails a check on a response with a body, whose body
      the closure then closes. */
  predicate ClosesBody(t: RetryTransport, n: nat)
  {
    var ex := t.wrapped(n);
    && ex.err.None? && ex.resp.Some? && ex.resp.value.hasBody
    && exists i :: 0 <= i < |t.checks| && Evaluate(t.checks[i], ex.resp).err.Some?
  }

  /** `RoundTrip(req)`. */
  function RoundTrip(t: RetryTransport, req: Option<Request>, rng: Options.Rng, env: Options.Env): (reply: Reply)
    ensures req.None? ==> reply == Reply(None, Some(Message("request is nil")), 0, {}, [], env)
    ensures reply.sent <= (if 0 < t.attempts then t.attempts else 0)
    ensures reply.resp.Some? ==>
              && reply.err.None? && 0 < reply.sent
              && t.wrapped(reply.sent - 1) == Exchange(reply.resp, None)
              && (forall i :: 0 <= i < |t.checks| ==> Evaluate(t.checks[i], reply.resp).err.None?)
              && reply.sent - 1 !in reply.closed
    ensures reply.err.None? ==>
              0 < reply.sent && t.wrapped(reply.sent - 1) == Exchange(reply.resp, None)
    ensures forall n: nat :: n in reply.closed <==> n < reply.sent && ClosesBody(t, n)
  {
    if req.None? then Reply(None, Some(Message("request is nil")), 0, {}, [], env)
    else
      var run := Engine.DoWithContext(t.retryer, Some(req.value.ctx), t.attempts, Some(Op(t)), rng, env);
      var resp := if run.result.None? then Answered(t, run.calls - 1) else None;
      Reply(resp, run.result, run.calls, Closed(t, run.calls), run.rounds, run.env)
  }

  /** The response the closure captured on send `n`, when that send
      passed. */
  function Answered(t: RetryTransport, n: nat): (resp: Option<Response>)
    requires Op(t)(n).err.None?
    ensures t.wrapped(n) == Exchange(resp, None)
    ensures forall i :: 0 <= i < |t.checks| ==> Evaluate(t.checks[i], resp).err.None?
    ensures !ClosesBody(t, n)
  {
    AttemptOnce(t.checks, t.wrapped(n)).resp
  }

  /** The sends, among the first `calls`, whose body the closure closed. */
  function Closed(t: RetryTransport, calls: nat): (closed: set<nat>)
    ensures forall n: nat :: n in closed <==> n < calls && ClosesBody(t, n)
  {
    set n: nat | n < calls && AttemptOnce(t.checks, t.wrapped(n)).closed
  }

  /** The engine's loop of `RoundTrip`, from its start. */
  function Start(t: RetryTransport, env: Options.Env): Engine.Progress
  {
    Engine.Progress(0, [], Options.RunPre(t.retryer.pre, env))
  }

  /** A transport error on the first send ends `RoundTrip` at once with the
      aborted error that wraps it, whatever the checks. */
  lemma TransportErrorAborts(t: RetryTransport, ctx: Engine.Context, rng: Options.Rng, env: Options.Env)
    requires Engine.Usable(Some(ctx)) && 1 <= t.attempts
    requires t.wrapped(0).err.Some?
    ensures RoundTrip(t, Some(Request(ctx)), rng, env).sent == 1
    ensures RoundTrip(t, Some(Request(ctx)), rng, env).err == Some(AbortedRetries(ErrorText(t.wrapped(0).err.value)))
    ensures RoundTrip(t, Some(Request(ctx)), rng, env).resp.None?
  {
    Engine.LoopStopsAt(t.retryer.post, Engine.StopOnAbort, ctx, Op(t), rng, t.attempts, Start(t, env), 0);
  }

  /** A response whose status the first check forbids ends `RoundTrip` at
      once with an aborted error; `WithNoRetryOnResponseCodes` puts its check
      first for this reason. */
  lemma NoRetryCodeAborts(t: RetryTransport, ctx: Engine.Context, rng: Options.Rng, env: Options.Env)
    requires Engine.Usable(Some(ctx)) && 1 <= t.attempts
    requires 0 < |t.checks| && t.checks[0].NoRetryOn?
    requires t.wrapped(0).err.None? && t.wrapped(0).resp.Some? && t.wrapped(0).resp.value.status in t.checks[0].codes
    ensures RoundTrip(t, Some(Request(ctx)), rng, env).sent == 1
    ensures HasAborted(RoundTrip(t, Some(Request(ctx)), rng, env).err)
    ensures RoundTrip(t, Some(Request(ctx)), rng, env).resp.None?
  {
    assert Op(t)(0).err == Evaluate(t.checks[0], t.wrapped(0).resp).err;
    Engine.LoopStopsAt(t.retryer.post, Engine.StopOnAbort, ctx, Op(t), rng, t.attempts, Start(t, env), 0);
  }

  /** With no checks, the first answer without a transport error is returned
      as it is, even a nil response. */
  lemma NoChecksReturnsFirstAnswer(w: Wrapped, attempts: int, rng: Options.Rng, env: Options.Env)
    requires 1 <= attempts && w(0).err.None?
    ensures New(Some(w), attempts, []).Success?
    ensures RoundTrip(New(Some(w), attempts, []).value, Some(Request(Engine.Background)), rng, env)
            == Reply(w(0).resp, None, 1, {}, [], Options.RunPre([], env))
  {
    var t := New(Some(w), attempts, []).value;
    assert t.checks == [] && t.retryer.pre == [];
    FirstAnswerWithoutChecks(t, rng, env);
  }

  /** The body of `NoChecksReturnsFirstAnswer`, for any transport without
      checks. */
  lemma FirstAnswerWithoutChecks(t: RetryTransport, rng: Options.Rng, env: Options.Env)
    requires 1 <= t.attempts && t.checks == [] && t.wrapped(0).err.None?
    ensures RoundTrip(t, Some(Request(Engine.Background)), rng, env)
            == Reply(t.wrapped(0).resp, None, 1, {}, [], Options.RunPre(t.retryer.pre, env))
  {
    var p := Start(t, env);
    assert Verdicts([], t.wrapped(0).resp) == [];
    assert Op(t)(0) == Engine.Outcome(None, map[]);
    Engine.LoopStops(t.retryer.post, Engine.StopOnAbort, Engine.Background, Op(t), rng, t.attempts, p);
    assert p.env.rate + map[] == p.env.rate;
    var reply := RoundTrip(t, Some(Request(Engine.Background)), rng, env);
    assert reply.closed == {} by {
      forall n | n in reply.closed
        ensures false
      {
      }
    }
  }

  /** A transport built from one well-formed option that clashes with
      nothing carries the check of that option alone. */
  lemma OneOptionTransport(w: Wrapped, attempts: int, opt: TransportOption)
    requires 1 <= attempts && !Malformed(opt) && !HasInvalidRetryOption(opt) && ClashFree({}, CodesOf(opt))
    ensures New(Some(w), attempts, [opt]).Success?
    ensures New(Some(w), attempts, [opt]).value.checks == Apply(opt, EmptyConfig, 0).value.checks
  {
    var opts := [opt];
    assert opts[1..] == [];
    assert AllCodes(opts) == CodesOf(opt) + AllCodes(opts[1..]) == CodesOf(opt);
    assert forall i :: 0 <= i < |opts| ==> opts[i] == opt;
    ConfigureStep(opts, EmptyConfig, 0);
  }

  /** A transport with one rate-limit check registers the post action that
      sleeps the delay the check stores into slot 0, and nothing else. */
  lemma RateLimitTransportSleepsSlot(w: Wrapped, attempts: int, limiter: Limiter)
    requires 1 <= attempts
    ensures New(Some(w), attempts, [WithRateLimitCheck(Some(limiter))]).Success?
    ensures var t := New(Some(w), attempts, [WithRateLimitCheck(Some(limiter))]).value;
            && t.checks == [RateLimit(0, limiter)]
            && t.retryer.post == [Options.DynamicSleep(0)]
  {
    var opt := WithRateLimitCheck(Some(limiter));
    OneOptionTransport(w, attempts, opt);
    var opts := [opt];
    ConfigureStep(opts, EmptyConfig, 0);
    assert opts[1..] == [];
    var rtOpts := [Options.WithDynamicDelay(0)];
    assert Configure(opts, EmptyConfig, 0).value.rtOpts == rtOpts;
    assert rtOpts[1..] == [];
    assert Engine.RegisteredAll(rtOpts) == [Options.DynamicSleep(0)];
  }

  /** A 429 answer whose limiter asks to wait `wait > 0` fails the one
      rate-limit check with a retryable error and stores `wait` in its slot. */
  lemma RateLimitedSend(t: RetryTransport, limiter: Limiter, n: nat)
    requires t.checks == [RateLimit(0, limiter)]
    requires t.wrapped(n).err.None? && t.wrapped(n).resp.Some?
    requires t.wrapped(n).resp.value.status == StatusTooManyRequests
    requires limiter(t.wrapped(n).resp.value.header).exceeded && 0 < limiter(t.wrapped(n).resp.value.header).wait
    ensures Retryable(Op(t)(n).err)
    ensures Op(t)(n).stores == map[0 := limiter(t.wrapped(n).resp.value.header).wait]
  {
    var ex := t.wrapped(n);
    var v := Evaluate(t.checks[0], ex.resp);
    AttemptOnceStopsAt(t.checks, ex, 0);
    assert Verdicts(t.checks, ex.resp)[..1] == [v];
    assert Merged([v]) == v.stores + Merged([v][1..]);
  }

  /** A rate-limited answer delays the retry: when the first send of a
      transport with one rate-limit check answers 429 and the limiter asks to
      wait `wait > 0`, the post round after that send sleeps exactly `wait`. */
  lemma RateLimitDelaysRetry(w: Wrapped, attempts: int, limiter: Limiter, rng: Options.Rng, env: Options.Env)
    requires 1 <= attempts
    requires w(0).err.None? && w(0).resp.Some? && w(0).resp.value.status == StatusTooManyRequests
    requires limiter(w(0).resp.value.header).exceeded && 0 < limiter(w(0).resp.value.header).wait
    ensures New(Some(w), attempts, [WithRateLimitCheck(Some(limiter))]).Success?
    ensures var t := New(Some(w), attempts, [WithRateLimitCheck(Some(limiter))]).value;
            var reply := RoundTrip(t, Some(Request(Engine.Background)), rng, env);
            0 < |reply.rounds| && reply.rounds[0] == [limiter(w(0).resp.value.header).wait]
  {
    RateLimitTransportSleepsSlot(w, attempts, limiter);
    var t := New(Some(w), attempts, [WithRateLimitCheck(Some(limiter))]).value;
    RateLimitedSend(t, limiter, 0);
    var o := Op(t)(0);
    assert Retryable(o.err);
    var p := Start(t, env);
    Engine.FirstRoundOfLoop(t.retryer.post, Engine.StopOnAbort, Engine.Background, Op(t), rng, attempts, p);
    Engine.RetriedSleepsStores(t.retryer.post, o, rng, p);
    var round := Engine.Retried(t.retryer.post, o, rng, p).rounds[0];
    assert |round| == 1 && round == [round[0]];
    var run := Engine.Loop(t.retryer.post, Engine.StopOnAbort, Engine.Background, Op(t), rng, attempts, p);
    assert RoundTrip(t, Some(Request(Engine.Background)), rng, env).rounds == run.rounds;
  }

  /** While every send ends in a retryable error, `RoundTrip` uses every
      attempt and returns `ErrAttemptsExceeded` itself with no response. */
  lemma ExhaustsWhileRetryable(t: RetryTransport, rng: Options.Rng, env: Options.Env)
    requires 1 <= t.attempts
    requires forall n: nat :: n < t.attempts ==> Retryable(Op(t)(n).err)
    ensures RoundTrip(t, Some(Request(Engine.Background)), rng, env).sent == t.attempts
    ensures RoundTrip(t, Some(Request(Engine.Background)), rng, env).resp.None?
    ensures RoundTrip(t, Some(Request(Engine.Background)), rng, env).err == Some(AttemptsExceeded)
  {
    forall j: nat | j < t.attempts
      ensures Engine.Continues(Engine.StopOnAbort, Engine.Background, Op(t), j)
    {
      assert Retryable(Op(t)(j).err);
    }
    Engine.LoopExhausts(t.retryer.post, Engine.StopOnAbort, Engine.Background, Op(t), rng, t.attempts, Start(t, env));
  }

  /** If send `k` is the first to pass every check after retryable
      failures, `RoundTrip` returns its response after `k + 1` sends. */
  lemma ReturnsFirstPass(t: RetryTransport, k: nat, rng: Options.Rng, env: Options.Env)
    requires k < t.attempts
    requires forall n: nat :: n < k ==> Retryable(Op(t)(n).err)
    requires Op(t)(k).err.None?
    ensures RoundTrip(t, Some(Request(Engine.Background)), rng, env).sent == k + 1
    ensures RoundTrip(t, Some(Request(Engine.Background)), rng, env).err.None?
    ensures RoundTrip(t, Some(Request(Engine.Background)), rng, env).resp == t.wrapped(k).resp
  {
    RetryableThenPass(t.retryer, Op(t), t.attempts, rng, env, k);
    RoundTripAfterPass(t, rng, env, k);
  }

  /** When the engine's run of the closure succeeds on send `k`,
      `RoundTrip` returns that send's response after `k + 1` sends. */
  lemma RoundTripAfterPass(t: RetryTransport, rng: Options.Rng, env: Options.Env, k: nat)
    requires Engine.DoWithContext(t.retryer, Some(Engine.Background), t.attempts, Some(Op(t)), rng, env).result.None?
    requires Engine.DoWithContext(t.retryer, Some(Engine.Background), t.attempts, Some(Op(t)), rng, env).calls == k + 1
    ensures RoundTrip(t, Some(Request(Engine.Background)), rng, env).sent == k + 1
    ensures RoundTrip(t, Some(Request(Engine.Background)), rng, env).err.None?
    ensures RoundTrip(t, Some(Request(Engine.Background)), rng, env).resp == t.wrapped(k).resp
  {
    RoundTripRuns(t, rng, env);
  }

  /** Any operation whose calls before `k` fail retryably and whose call
      `k` succeeds makes the engine return nil after `k + 1` calls. */
  lemma RetryableThenPass(r: Options.Retryer, f: Engine.Operation, attempts: int, rng: Options.Rng,
                          env: Options.Env, k: nat)
    requires k < attempts
    requires forall n: nat :: n < k ==> Retryable(f(n).err)
    requires f(k).err.None?
    ensures Engine.DoWithContext(r, Some(Engine.Background), attempts, Some(f), rng, env).result.None?
    ensures Engine.DoWithContext(r, Some(Engine.Background), attempts, Some(f), rng, env).calls == k + 1
  {
    forall j: nat | j < k
      ensures Engine.Continues(Engine.StopOnAbort, Engine.Background, f, j)
    {
      assert Retryable(f(j).err);
    }
    Engine.DoWithContextSucceedsOnCall(r, Engine.Background, attempts, f, rng, env, k);
  }

  /** Under the background context, `RoundTrip` reports what the engine's
      run of the closure returned, and on success the response captured by
      the last send. */
  lemma RoundTripRuns(t: RetryTransport, rng: Options.Rng, env: Options.Env)
    ensures var run := Engine.DoWithContext(t.retryer, Some(Engine.Background), t.attempts, Some(Op(t)), rng, env);
            var reply := RoundTrip(t, Some(Request(Engine.Background)), rng, env);
            && reply.sent == run.calls && reply.err == run.result
            && (run.result.None? ==> 0 < run.calls && reply.resp == t.wrapped(run.calls - 1).resp)
  {
  }

  /** A transport retrying on a set of status codes, whose wrapped transport
      always answers one of them, sends `attempts` times, closes every body,
      and returns `ErrAttemptsExceeded` itself with no response. */
  lemma RetryOnExhausts(w: Wrapped, attempts: int, codes: seq<int>, rng: Options.Rng, env: Options.Env)
    requires 1 <= attempts && ClashFree({}, codes)
    requires forall n: nat :: w(n).err.None? && w(n).resp.Some? && w(n).resp.value.status in codes
                              && w(n).resp.value.hasBody
    ensures New(Some(w), attempts, [WithRetryOnResponseCodes(codes)]).Success?
    ensures var reply := RoundTrip(New(Some(w), attempts, [WithRetryOnResponseCodes(codes)]).value,
                                   Some(Request(Engine.Background)), rng, env);
            && reply.sent == attempts && reply.resp.None? && reply.err == Some(AttemptsExceeded)
            && forall n: nat :: n in reply.closed <==> n < attempts
  {
    OneOptionTransport(w, attempts, WithRetryOnResponseCodes(codes));
    var t := New(Some(w), attempts, [WithRetryOnResponseCodes(codes)]).value;
    assert t.checks == [RetryOn(set c | c in codes)];
    forall n: nat | n < attempts
      ensures Retryable(Op(t)(n).err) && ClosesBody(t, n)
    {
      var v := Evaluate(t.checks[0], t.wrapped(n).resp);
      assert Retryable(v.err);
      assert Op(t)(n).err == v.err;
    }
    ExhaustsWhileRetryable(t, rng, env);
  }

  /** A transport whose only check retries until a status arrives sends
      until the first answer with that status and returns it, with a nil
      error. */
  lemma RetryUntilReturnsMatch(t: RetryTransport, table: set<int>, k: nat, rng: Options.Rng, env: Options.Env)
    requires k < t.attempts && t.checks == [RetryUntil(table)]
    requires forall n: nat :: n <= k ==> t.wrapped(n).err.None? && t.wrapped(n).resp.Some?
    requires forall n: nat :: n < k ==> t.wrapped(n).resp.value.status !in table
    requires t.wrapped(k).resp.value.status in table
    ensures RoundTrip(t, Some(Request(Engine.Background)), rng, env).sent == k + 1
    ensures RoundTrip(t, Some(Request(Engine.Background)), rng, env).resp == t.wrapped(k).resp
    ensures RoundTrip(t, Some(Request(Engine.Background)), rng, env).err.None?
  {
    forall n: nat | n < k
      ensures Retryable(Op(t)(n).err)
    {
      var v := Evaluate(t.checks[0], t.wrapped(n).resp);
      assert Retryable(v.err);
      assert Op(t)(n).err == v.err;
    }
    assert Op(t)(k).err == Evaluate(t.checks[0], t.wrapped(k).resp).err;
    ReturnsFirstPass(t, k, rng, env);
  }

  /** The checks exactly as written (`EvaluateAsWritten`); None is a panic. */
  function RunChecksAsWritten(checks: seq<Check>, resp: Option<Response>): Option<Verdict>
    decreases |checks|
  {
    if |checks| == 0 then Some(Verdict(None, map[]))
    else
      match EvaluateAsWritten(checks[0], resp)
      case None => None
      case Some(v) =>
        if v.err.Some? then Some(v)
        else
          match RunChecksAsWritten(checks[1..], resp)
          case None => None
          case Some(rest) => Some(Verdict(rest.err, v.stores + rest.stores))
  }

  /** The closure exactly as written: after a failing check it reads the
      body of the response, which panics (None) when the response is nil. */
  function AttemptOnceAsWritten(checks: seq<Check>, ex: Exchange): Option<Step>
  {
    if ex.err.Some? then Some(Step(Some(AbortedRetries(ErrorText(ex.err.value))), map[], false, None))
    else
      match RunChecksAsWritten(checks, ex.resp)
      case None => None
      case Some(v) =>
        if v.err.None? then Some(Step(None, v.stores, false, ex.resp))
        else if ex.resp.None? then None
        else Some(Step(v.err, v.stores, ex.resp.value.hasBody, None))
  }

  lemma {:induction false} RunChecksAgree(checks: seq<Check>, resp: Option<Response>)
    requires resp.Some?
    ensures RunChecksAsWritten(checks, resp) == Some(RunChecks(checks, resp))
    decreases |checks|
  {
    if |checks| > 0 {
      RunChecksAgree(checks[1..], resp);
    }
  }

  /** The closure as written panics exactly when the wrapped transport
      answers with neither a response nor an error and there is a check to
      run; otherwise it does what `AttemptOnce` does. */
  lemma AsWrittenPanicsIff(checks: seq<Check>, ex: Exchange)
    ensures AttemptOnceAsWritten(checks, ex).None? <==> ex.err.None? && ex.resp.None? && 0 < |checks|
    ensures AttemptOnceAsWritten(checks, ex).Some? ==> AttemptOnceAsWritten(checks, ex) == Some(AttemptOnce(checks, ex))
  {
    if ex.resp.Some? {
      RunChecksAgree(checks, ex.resp);
    }
  }

  /** The input that shows it: a retry-on check and an answer of (nil, nil).
      As written the closure panics; corrected, the send is retried with the
      "response is nil" error. */
  lemma NilAnswerPanics()
    ensures AttemptOnceAsWritten([RetryOn({500})], Exchange(None, None)).None?
    ensures AttemptOnce([RetryOn({500})], Exchange(None, None)) == Step(Some(NilResponse), map[], false, None)
  {
  }
}

=== FILE: transport_options.dfy ===
/** The options of the HTTP transport decorator
    (http/transport/round_tripper_option.go): the response checks they
    register, the shared table of status codes that detects clashes, and the
    retry options they pass on to the engine.

    A response is reduced to its status code, its header and whether it has
    a body. A rate limiter is the caller's function of the header. */
module TransportOptions {
  import opened Wrappers
  import opened Errors
  import Options

  type Header = map<string, seq<string>>

  datatype Response = Response(status: int, header: Header, hasBody: bool)

  /** What a rate limiter reports: how long to wait, and whether the limit
      was exceeded. */
  datatype Throttle = Throttle(wait: int, exceeded: bool)

  type Limiter = Header -> Throttle

  /** `http.StatusTooManyRequests`. */
  const StatusTooManyRequests: int := 429

  /** The check closures the options register. `RateLimit` stores into the
      delay slot `cell`, which its companion `WithDynamicDelay` reads. */
  datatype Check =
    | NoRetryOn(codes: set<int>)
    | RetryOn(codes: set<int>)
    | RetryUntil(codes: set<int>)
    | RateLimit(cell: nat, limiter: Limiter)

  /** What a check returns, and the delay slots it stored. */
  datatype Verdict = Verdict(err: Option<Error>, stores: map<nat, int>)

  /** The `config` the options fold over. */
  datatype Config = Config(rtOpts: seq<Options.RetryOption>, checks: seq<Check>, table: set<int>)

  /** The transport `Option` values. */
  datatype TransportOption =
    | WithRetryOptions(opts: seq<Option<Options.RetryOption>>)
    | WithNoRetryOnResponseCodes(codes: seq<int>)
    | WithRetryOnResponseCodes(codes: seq<int>)
    | WithRetryUntilResponseCodes(codes: seq<int>)
    | WithRateLimitCheck(limiter: Option<Limiter>)

  function DigitChar(d: nat): char
    requires d < 10
  {
    ('0' as int + d) as char
  }

  function Digits(n: nat): string
    decreases n
  {
    if n < 10 then [DigitChar(n)] else Digits(n / 10) + [DigitChar(n % 10)]
  }

  /** `%d` formatting. */
  function Decimal(n: int): string
  {
    if n < 0 then "-" + Digits(-n) else Digits(n)
  }

  /** An error that keeps the attempt loop going under either stop rule. */
  predicate Retryable(err: Option<Error>)
  {
    err.Some? && CanRecover(err).0 && !HasAborted(err)
  }

  const NilResponse: Error := Message("response is nil")

  /** Running a check on the response of one attempt. Every check fails on a
      nil response with the "response is nil" error (the retry-until check
      as written dereferences it instead: see `EvaluateAsWritten`). */
  function Evaluate(c: Check, resp: Option<Response>): (v: Verdict)
    ensures resp.None? ==> v == Verdict(Some(NilResponse), map[])
    ensures !c.RateLimit? ==> v.stores == map[]
    ensures forall slot :: slot in v.stores ==> c.RateLimit? && slot == c.cell
    ensures c.NoRetryOn? && resp.Some? ==>
              (v.err.Some? <==> resp.value.status in c.codes) && (v.err.Some? ==> HasAborted(v.err))
    ensures c.RetryOn? && resp.Some? ==>
              (v.err.Some? <==> resp.value.status in c.codes) && (v.err.Some? ==> Retryable(v.err))
    ensures c.RetryUntil? && resp.Some? ==>
              (v.err.None? <==> resp.value.status in c.codes) && (v.err.Some? ==> Retryable(v.err))
    ensures c.RateLimit? && resp.Some? && resp.value.status != StatusTooManyRequests ==>
              v == Verdict(None, map[])
    ensures c.RateLimit? && resp.Some? && resp.value.status == StatusTooManyRequests ==>
              var t := c.limiter(resp.value.header);
              && (v.err.Some? <==> t.exceeded && 0 < t.wait)
              && (v.err.Some? ==> Retryable(v.err))
              && v.stores == map[c.cell := if t.exceeded && 0 < t.wait then t.wait else 0]
  {
    match resp
    case None => Verdict(Some(NilResponse), map[])
    case Some(r) =>
      match c
      case NoRetryOn(codes) =>
        if r.status in codes
        then Verdict(Some(AbortedRetries("unable to recover response status code: " + Decimal(r.status))), map[])
        else Verdict(None, map[])
      case RetryOn(codes) =>
        if r.status in codes
        then Verdict(Some(Message("returned status code allows retries: " + Decimal(r.status))), map[])
        else Verdict(None, map[])
      case RetryUntil(codes) =>
        if r.status in codes then Verdict(None, map[])
        else Verdict(Some(Message("unmatched status code " + Decimal(r.status) + ", continue retrying")), map[])
      case RateLimit(cell, limiter) =>
        if r.status != StatusTooManyRequests then Verdict(None, map[])
        else
          var t := limiter(r.header);
          if t.exceeded && 0 < t.wait
          then Verdict(Some(Message("exceeded rate limit")), map[cell := t.wait])
          else Verdict(None, map[cell := 0])
  }

  /** The check closures exactly as written: None stands for the nil-pointer
      panic of the retry-until check, which reads the status of a nil
      response; the other checks are as in `Evaluate`. */
  function EvaluateAsWritten(c: Check, resp: Option<Response>): Option<Verdict>
  {
    match c
    case RetryUntil(codes) =>
      if resp.None? then None
      else if resp.value.status in codes then Some(Verdict(None, map[]))
      else Some(Verdict(Some(Message("unmatched status code " + Decimal(resp.value.status) + ", continue retrying")), map[]))
    case _ => Some(Evaluate(c, resp))
  }

  /** Given a nil response, the retry-until check as written panics, where
      its siblings report the "response is nil" error, which is retried. */
  lemma RetryUntilNilPanics(codes: set<int>)
    ensures EvaluateAsWritten(RetryUntil(codes), None) == None
    ensures Evaluate(RetryUntil(codes), None).err == Some(NilResponse)
    ensures Retryable(Evaluate(RetryUntil(codes), None).err)
  {
  }

  /** Code `i` clashes when the table or an earlier code of the same call
      already holds it. */
  predicate Clashes(table: set<int>, codes: seq<int>, i: int)
    requires 0 <= i < |codes|
  {
    codes[i] in table || codes[i] in codes[..i]
  }

  predicate ClashFree(table: set<int>, codes: seq<int>)
  {
    forall i :: 0 <= i < |codes| ==> !Clashes(table, codes, i)
  }

  function ClashError(code: int): Error
  {
    Message("clash on response code [" + Decimal(code) + "]")
  }

  /** Moving the first code into the table leaves the clashes of the
      remaining codes as they were. */
  lemma ClashesShift(table: set<int>, codes: seq<int>)
    requires 0 < |codes| && codes[0] !in table
    ensures forall i :: 1 <= i < |codes| ==>
              (Clashes(table, codes, i) <==> Clashes(table + {codes[0]}, codes[1..], i - 1))
    ensures ClashFree(table, codes) <==> ClashFree(table + {codes[0]}, codes[1..])
  {
    var rest := codes[1..];
    var t := table + {codes[0]};
    forall i | 1 <= i < |codes|
      ensures Clashes(table, codes, i) <==> Clashes(t, rest, i - 1)
    {
      assert codes[..i] == [codes[0]] + rest[..i - 1];
    }
    assert !Clashes(table, codes, 0);
    if !ClashFree(t, rest) {
      var j :| 0 <= j < |rest| && Clashes(t, rest, j);
      assert Clashes(table, codes, j + 1);
    }
  }

  /** Adding the codes of one option to the shared table, in order. */
  function Register(table: set<int>, codes: seq<int>): (res: Result<set<int>, Error>)
    ensures res.Failure? <==> !ClashFree(table, codes)
    ensures res.Success? ==> res.value == table + set c | c in codes
    decreases |codes|
  {
    if |codes| == 0 then Success(table)
    else if codes[0] in table then
      assert Clashes(table, codes, 0);
      Failure(ClashError(codes[0]))
    else
      ClashesShift(table, codes);
      assert (set c | c in codes) == {codes[0]} + (set c | c in codes[1..]) by {
        assert codes == [codes[0]] + codes[1..];
      }
      Register(table + {codes[0]}, codes[1..])
  }

  /** A clash is reported on the first code that clashes. */
  lemma {:induction false} RegisterReportsFirstClash(table: set<int>, codes: seq<int>, i: nat)
    requires i < |codes| && Clashes(table, codes, i)
    requires forall k :: 0 <= k < i ==> !Clashes(table, codes, k)
    ensures Register(table, codes) == Failure(ClashError(codes[i]))
    decreases |codes|
  {
    if codes[0] !in table {
      assert 0 < i by {
        assert codes[..0] == [];
      }
      var t := table + {codes[0]};
      var rest := codes[1..];
      ClashesShift(table, codes);
      forall k | 0 <= k < i - 1
        ensures !Clashes(t, rest, k)
      {
        assert !Clashes(table, codes, k + 1);
      }
      RegisterReportsFirstClash(t, rest, i - 1);
      assert Register(table, codes) == Register(t, rest);
      assert codes[i] == rest[i - 1];
    } else {
      assert Clashes(table, codes, 0);
    }
  }

  /** `WithRetryOptions`' loop: every option is appended in order; a nil
      one makes the whole option fail. */
  function AppendRetryOptions(opts: seq<Option<Options.RetryOption>>, acc: seq<Options.RetryOption>)
    : (res: Result<seq<Options.RetryOption>, Error>)
    ensures res.Failure? <==> exists i :: 0 <= i < |opts| && opts[i].None?
    ensures res.Failure? ==> res.error == Message("nil retry option provided")
    ensures res.Success? ==>
              && |res.value| == |acc| + |opts|
              && res.value[..|acc|] == acc
              && forall i :: 0 <= i < |opts| ==> opts[i] == Some(res.value[|acc| + i])
    decreases |opts|
  {
    if |opts| == 0 then Success(acc)
    else if opts[0].None? then Failure(Message("nil retry option provided"))
    else
      var res := AppendRetryOptions(opts[1..], acc + [opts[0].value]);
      assert forall i :: 1 <= i < |opts| ==> opts[i] == opts[1..][i - 1];
      if res.Success? then
        assert res.value[..|acc|] == (res.value[..|acc| + 1])[..|acc|];
        res
      else res
  }

  /** Options that fail whatever the table holds. */
  predicate Malformed(opt: TransportOption)
  {
    match opt
    case WithRetryOptions(opts) => exists i :: 0 <= i < |opts| && opts[i].None?
    case WithRetryUntilResponseCodes(codes) => |codes| == 0
    case WithRateLimitCheck(limiter) => limiter.None?
    case _ => false
  }

  /** The status codes an option registers in the shared table. */
  function CodesOf(opt: TransportOption): seq<int>
  {
    match opt
    case WithNoRetryOnResponseCodes(codes) => codes
    case WithRetryOnResponseCodes(codes) => codes
    case WithRetryUntilResponseCodes(codes) => codes
    case _ => []
  }

  /** Applying one option; `position` is the option's place in the list
      passed to `New`, which names the delay slot of a rate-limit check. */
  function Apply(opt: TransportOption, cf: Config, position: nat): (res: Result<Config, Error>)
    ensures res.Failure? <==> Malformed(opt) || !ClashFree(cf.table, CodesOf(opt))
    ensures res.Success? ==> res.value.table == cf.table + set c | c in CodesOf(opt)
    ensures res.Success? && opt.WithRetryOptions? ==>
              res.value.checks == cf.checks && |res.value.rtOpts| == |cf.rtOpts| + |opt.opts|
              && res.value.rtOpts[..|cf.rtOpts|] == cf.rtOpts
              && forall i :: 0 <= i < |opt.opts| ==> opt.opts[i] == Some(res.value.rtOpts[|cf.rtOpts| + i])
    ensures res.Success? && opt.WithNoRetryOnResponseCodes? ==>
              res.value.rtOpts == cf.rtOpts
              && res.value.checks == [NoRetryOn(set c | c in opt.codes)] + cf.checks
    ensures res.Success? && opt.WithRetryOnResponseCodes? ==>
              res.value.rtOpts == cf.rtOpts
              && res.value.checks == cf.checks + [RetryOn(set c | c in opt.codes)]
    ensures res.Success? && opt.WithRetryUntilResponseCodes? ==>
              res.value.rtOpts == cf.rtOpts
              && res.value.checks == cf.checks + [RetryUntil(set c | c in opt.codes)]
    ensures res.Success? && opt.WithRateLimitCheck? ==>
              res.value.rtOpts == cf.rtOpts + [Options.WithDynamicDelay(position)]
              && res.value.checks == cf.checks + [RateLimit(position, opt.limiter.value)]
  {
    match opt
    case WithRetryOptions(opts) =>
      var res := AppendRetryOptions(opts, cf.rtOpts);
      if res.Failure? then Failure(res.error) else Success(cf.(rtOpts := res.value))
    case WithNoRetryOnResponseCodes(codes) =>
      var res := Register(cf.table, codes);
      if res.Failure? then Failure(res.error)
      else Success(cf.(table := res.value, checks := [NoRetryOn(set c | c in codes)] + cf.checks))
    case WithRetryOnResponseCodes(codes) =>
      var res := Register(cf.table, codes);
      if res.Failure? then Failure(res.error)
      else Success(cf.(table := res.value, checks := cf.checks + [RetryOn(set c | c in codes)]))
    case WithRetryUntilResponseCodes(codes) =>
      if |codes| == 0 then Failure(Message("requires at least one response code to compare against"))
      else
        var res := Register(cf.table, codes);
        if res.Failure? then Failure(res.error)
        else Success(cf.(table := res.value, checks := cf.checks + [RetryUntil(set c | c in codes)]))
    case WithRateLimitCheck(limiter) =>
      if limiter.None? then Failure(Message("limiter function is nil"))
      else Success(cf.(rtOpts := cf.rtOpts + [Options.WithDynamicDelay(position)],
                       checks := cf.checks + [RateLimit(position, limiter.value)]))
  }

  /** The options folded in order; the first failure ends the fold. */
  function Configure(opts: seq<TransportOption>, cf: Config, position: nat): (res: Result<Config, Error>)
    ensures res.Success? ==> |cf.rtOpts| <= |res.value.rtOpts| && res.value.rtOpts[..|cf.rtOpts|] == cf.rtOpts
    ensures res.Success? ==> |cf.checks| <= |res.value.checks|
    ensures res.Success? ==> forall c :: c in cf.checks ==> c in res.value.checks
    decreases |opts|
  {
    if |opts| == 0 then Success(cf)
    else
      match Apply(opts[0], cf, position)
      case Failure(e) => Failure(e)
      case Success(cf') =>
        var res := Configure(opts[1..], cf', position + 1);
        assert |cf.rtOpts| <= |cf'.rtOpts| && cf'.rtOpts[..|cf.rtOpts|] == cf.rtOpts;
        if res.Success? then
          assert res.value.rtOpts[..|cf.rtOpts|] == res.value.rtOpts[..|cf'.rtOpts|][..|cf.rtOpts|];
          res
        else res
  }

  /** One step of the fold: the first option, then the rest from where it
      left the configuration. */
  lemma ConfigureStep(opts: seq<TransportOption>, cf: Config, position: nat)
    requires |opts| > 0
    ensures Apply(opts[0], cf, position).Failure? ==>
              Configure(opts, cf, position) == Failure(Apply(opts[0], cf, position).error)
    ensures Apply(opts[0], cf, position).Success? ==>
              Configure(opts, cf, position) == Configure(opts[1..], Apply(opts[0], cf, position).value, position + 1)
  {
  }

  /** The first option whose `Apply` fails decides the error of the fold;
      the options after it are never applied. */
  lemma {:induction false} ConfigureStopsAtFirstError(opts: seq<TransportOption>, cf: Config, position: nat, k: nat)
    requires k < |opts|
    requires Configure(opts[..k], cf, position).Success?
    requires Apply(opts[k], Configure(opts[..k], cf, position).value, position + k).Failure?
    ensures Configure(opts, cf, position)
            == Failure(Apply(opts[k], Configure(opts[..k], cf, position).value, position + k).error)
    decreases k
  {
    ConfigureStep(opts, cf, position);
    if 0 < k {
      var prefix := opts[..k];
      assert prefix[0] == opts[0] && prefix[1..] == opts[1..][..k - 1];
      ConfigureStep(prefix, cf, position);
      var next := Apply(opts[0], cf, position).value;
      assert Configure(prefix, cf, position) == Configure(opts[1..][..k - 1], next, position + 1);
      assert opts[1..][k - 1] == opts[k];
      ConfigureStopsAtFirstError(opts[1..], next, position + 1, k - 1);
    }
  }

  /** The codes all the options register, in order. */
  function AllCodes(opts: seq<TransportOption>): seq<int>
  {
    if |opts| == 0 then [] else CodesOf(opts[0]) + AllCodes(opts[1..])
  }

  /** A successful fold has registered every code of every option, and
      nothing else, in the shared table. */
  lemma {:induction false} ConfigureRegistersAllCodes(opts: seq<TransportOption>, cf: Config, position: nat)
    requires Configure(opts, cf, position).Success?
    ensures Configure(opts, cf, position).value.table == cf.table + set c | c in AllCodes(opts)
    decreases |opts|
  {
    if 0 < |opts| {
      ConfigureStep(opts, cf, position);
      AllCodesStep(opts);
      ConfigureRegistersAllCodes(opts[1..], Apply(opts[0], cf, position).value, position + 1);
    }
  }

  /** The codes of a list are those of its first option and of the rest. */
  lemma AllCodesStep(opts: seq<TransportOption>)
    requires 0 < |opts|
    ensures (set c | c in AllCodes(opts)) == (set c | c in CodesOf(opts[0])) + (set c | c in AllCodes(opts[1..]))
  {
    assert AllCodes(opts) == CodesOf(opts[0]) + AllCodes(opts[1..]);
  }

  lemma ClashFreeAppend(table: set<int>, a: seq<int>, b: seq<int>)
    ensures ClashFree(table, a + b) <==> ClashFree(table, a) && ClashFree(table + (set c | c in a), b)
  {
    var ab := a + b;
    var t := table + (set c | c in a);
    forall i | 0 <= i < |a|
      ensures Clashes(table, ab, i) <==> Clashes(table, a, i)
    {
      assert ab[..i] == a[..i];
    }
    forall i | 0 <= i < |b|
      ensures Clashes(table, ab, |a| + i) <==> Clashes(t, b, i)
    {
      assert ab[..|a| + i] == a + b[..i];
    }
    if ClashFree(table, a) && ClashFree(t, b) {
      forall i | 0 <= i < |ab|
        ensures !Clashes(table, ab, i)
      {
        if |a| <= i {
          assert !Clashes(t, b, i - |a|);
        }
      }
    }
    if ClashFree(table, ab) {
      forall i | 0 <= i < |b|
        ensures !Clashes(t, b, i)
      {
        assert !Clashes(table, ab, |a| + i);
      }
    }
  }

  /** Building the transport's configuration fails exactly when an option is
      malformed or a status code is registered twice, whether by two options
      or twice within one. */
  lemma {:induction false} ConfigureFailsIff(opts: seq<TransportOption>, cf: Config, position: nat)
    ensures Configure(opts, cf, position).Failure? <==>
              (exists i :: 0 <= i < |opts| && Malformed(opts[i])) || !ClashFree(cf.table, AllCodes(opts))
    decreases |opts|
  {
    if |opts| > 0 {
      var rest := opts[1..];
      assert forall i :: 1 <= i < |opts| ==> opts[i] == rest[i - 1];
      ClashFreeAppend(cf.table, CodesOf(opts[0]), AllCodes(rest));
      var res := Apply(opts[0], cf, position);
      if res.Success? {
        ConfigureFailsIff(rest, res.value, position + 1);
      }
    }
  }

  /** Every retry option is accepted by the engine's `New`. */
  predicate AllValid(rtOpts: seq<Options.RetryOption>)
  {
    forall i :: 0 <= i < |rtOpts| ==> Options.Valid(rtOpts[i])
  }

  /** A `WithRetryOptions` option carrying a retry option the engine rejects. */
  predicate HasInvalidRetryOption(opt: TransportOption)
  {
    opt.WithRetryOptions? && exists k :: 0 <= k < |opt.opts| && opt.opts[k].Some? && !Options.Valid(opt.opts[k].value)
  }

  /** One option keeps the collected retry options valid exactly when it
      carries no invalid retry option. */
  lemma ApplyKeepsValidity(opt: TransportOption, cf: Config, position: nat)
    requires Apply(opt, cf, position).Success?
    ensures AllValid(Apply(opt, cf, position).value.rtOpts) <==> AllValid(cf.rtOpts) && !HasInvalidRetryOption(opt)
  {
    var cf' := Apply(opt, cf, position).value;
    var n := |cf.rtOpts|;
    assert forall i :: 0 <= i < n ==> cf'.rtOpts[i] == cf.rtOpts[i] by {
      assert cf'.rtOpts[..n] == cf.rtOpts;
    }
    match opt
    case WithRetryOptions(given) =>
      assert forall k :: 0 <= k < |given| ==> given[k] == Some(cf'.rtOpts[n + k]);
      if AllValid(cf.rtOpts) && !HasInvalidRetryOption(opt) {
        forall i | n <= i < |cf'.rtOpts|
          ensures Options.Valid(cf'.rtOpts[i])
        {
          assert given[i - n] == Some(cf'.rtOpts[i]);
        }
      }
    case WithRateLimitCheck(_) =>
      assert cf'.rtOpts == cf.rtOpts + [Options.WithDynamicDelay(position)];
    case _ =>
  }

  /** The retry options the transport options collect are all valid exactly
      when the ones given through `WithRetryOptions` are: the dynamic delay a
      rate-limit check adds is always accepted. */
  lemma {:induction false} ConfigureKeepsValidity(opts: seq<TransportOption>, cf: Config, position: nat)
    requires Configure(opts, cf, position).Success?
    ensures AllValid(Configure(opts, cf, position).value.rtOpts) <==>
              AllValid(cf.rtOpts) && forall i :: 0 <= i < |opts| ==> !HasInvalidRetryOption(opts[i])
    decreases |opts|
  {
    if |opts| > 0 {
      var rest := opts[1..];
      assert forall i :: 1 <= i < |opts| ==> opts[i] == rest[i - 1];
      ConfigureStep(opts, cf, position);
      var cf' := Apply(opts[0], cf, position).value;
      ApplyKeepsValidity(opts[0], cf, position);
      ConfigureKeepsValidity(rest, cf', position + 1);
    }
  }
}

=== FILE: wrappers.dfy ===
/** Optional values and fallible results, used for Go's nilable values and
    for its `(value, error)` returns. */
module Wrappers {

  /** A value that may be absent: Go's nil pointer, nil func or nil error. */
  datatype Option<+T> = None | Some(value: T)

  /** The outcome of a Go constructor that returns `(value, error)`. */
  datatype Result<+T, +E> = Success(value: T) | Failure(error: E)

  /** The value stored under `k`, or `default` when `k` has none. */
  function Lookup<K, V>(m: map<K, V>, k: K, default: V): V
  {
    if k in m then m[k] else default
  }
}
